=== FILE: README.md ===
# Offline-first banking client: a Dafny model

This project models the client-side core of a mobile banking web app. The
core is an offline-first API client. It answers reads from a local store,
refreshes that store from the network, and falls back to an action queue
when writes cannot reach the server. Around it sit an operator-facing
offline manager and a few pieces of pure UI logic:

- the PIN pad, the account swipe and the number stepper;
- back-button routing;
- the tab bar's active-tab rule;
- transaction row classification;
- the throttle and debounce callback hooks;
- the dashboard greeting.

Every operation is a pure function over immutable data.

- **Collaborators.** The local store, the sync manager and the security
  manager are not part of this model's sources. They appear only as the
  state and answers the client code reads.
  - The store is two keyed tables (accounts by id, transactions by account
    and id), a queue with fresh ids, and sync metadata.
  - The other collaborators' answers are parameters (`Probe`, `SyncOutcome`).
- **Network.** The network is an explicit outcome parameter, `NetOutcome`:
  either the delivered body or the value the request threw.
  - A read that refreshes in the background takes a second outcome, `bg`.
  - That outcome is applied to the store after the call's own answer is
    decided.
  - `requests` counts the network requests a call issues.
- **Online flag and clock.** The browser's online flag is a parameter. So are
  the clock (throttle) and timer expiry (debounce).

Modules, in dependency order:

- `Base` (`Option`, `Result`);
- `Text` (decimal rendering, joining, prefixes);
- `Table` (keyed upsert tables);
- `Storage` (the store the client reads and writes);
- `ApiErrors` (thrown values and `createApiError`);
- `SyncManager`;
- `OfflineFirstApi` and `OfflineFirstApiProperties`;
- `OfflineManager` and `OfflineManagerProperties`;
- `TouchComponents`, `BackNavigation`, `TabBar`, `TransactionItem`,
  `StableCallback`, `DashboardHeader`.

Where the code and its surrounding documentation disagree, the model
follows the code:

- **Failed HTTP responses are not retryable.** The request helper throws a
  plain `Error` that has no `status` field. So a 500 or 408 response is
  classified as non-retryable; only a status carried on the thrown value
  counts. A request timeout surfaces as an `AbortError`, which is not
  retryable either.
- **The background refresh also runs when the cache is empty.** An online
  `getAccounts` or `getTransactions` starts it before it looks at the cache.
  An empty cache therefore costs two requests: the refresh and the
  foreground fetch.
- **A zero `lastSync` reads as "never".** A global sync time of `0` is
  reported as `null` (`|| null`).
- **`initialize` ignores the session check's answer.** Only a thrown
  session check counts as a failure.
- **Sync guards use different online flags.** The manager's `forceSyncNow`
  checks the browser's online flag, not the hook's `isOnline` state. It
  calls the sync manager directly, not the client's `forceSyncNow`.
- **Incoming transfers show mixed signals.** A transaction of type '이체'
  with a positive amount is drawn in the deposit colour but labelled '출금'
  (`TransactionItem.IncomingTransferMixesSignals`). The code's comment groups
  transfers with debits. The model keeps the code's behaviour.
- **Concrete account paths go back to the wallet.** The back handler
  compares the path with the literal route patterns `/account/:accountId`.
  A concrete path such as `/account/42` therefore falls to the default case
  and goes back to `/wallet` (`BackNavigation.ConcreteAccountPathGoesToWallet`).

## Model

| member | source | states |
|---|---|---|
| Table.Lookup | src/core/api/offlineFirstApi.ts:141-143 | a lookup finds nothing exactly when the key is absent, and what it finds is a stored row for that key |
| Table.Upsert | src/core/api/offlineFirstApi.ts:321 | storing a record makes its key map to it, leaves every other key's record unchanged, adds only that key, and grows the table only for a new key |
| Table.UpsertAll | src/core/api/offlineFirstApi.ts:305-307 | storing a batch one by one leaves keys outside the batch unchanged, makes each key map to its last occurrence in the batch, and adds exactly the batch's keys |
| Table.UpsertIdempotent | src/core/api/offlineFirstApi.ts:321 | storing the same record twice is the same as storing it once |
| Table.UpsertKeepsKeysUnique | src/core/api/offlineFirstApi.ts:321 | storing by key never creates a duplicate key |
| Table.UpsertAbsentAppends | src/core/api/offlineFirstApi.ts:321 | storing a record under a new key appends it |
| Table.UpsertAllFreshAppends | src/core/api/offlineFirstApi.ts:305-307 | storing a batch whose keys are distinct from each other and from the table's appends the batch in order |
| Table.UpsertAllPresent | src/core/api/offlineFirstApi.ts:396-398 | storing a batch the table already holds changes nothing |
| Table.UpsertAllProvenance | src/core/api/offlineFirstApi.ts:396-398 | after storing a batch, each key maps to its old record or to some record of the batch |
| Table.LookupUnique | src/core/api/offlineFirstApi.ts:141-143 | with unique keys, every stored row is found by its key |
| Storage.AllAccounts | src/core/api/offlineFirstApi.ts:99 | the account list has one entry per stored account |
| Storage.StoreAccount | src/core/api/offlineFirstApi.ts:321 | `storeAccount` makes the account readable by id, keeps every other account, and leaves transactions, queue and metadata alone |
| Storage.StoreAccounts | src/core/api/offlineFirstApi.ts:305-307 | storing a list of accounts keeps accounts with other ids, makes the last account with each id readable, and touches nothing else |
| Storage.StoreTransaction | src/core/api/offlineFirstApi.ts:337-339 | `storeTransaction` makes the transaction readable under its account and id and keeps every other transaction and all accounts |
| Storage.StoreTransactions | src/core/api/offlineFirstApi.ts:421-423 | storing a list of transactions keeps transactions with other keys, and each transaction whose key does not recur later in the list reads back under its (account, id) key, so the last record for a key wins; exactly the list's keys are added; accounts and queue are untouched |
| Storage.OfAccount | src/core/api/offlineFirstApi.ts:177 | the account filter keeps exactly the stored transactions of that account |
| Storage.TransactionsByAccount | src/core/api/offlineFirstApi.ts:177 | a cached transaction read returns the first `limit` of the account's cached transactions, or all of them when there are at most `limit` |
| Storage.Enqueue | src/core/api/offlineFirstApi.ts:218 | queueing appends exactly one action under an id no queued action already has, and leaves accounts, transactions and metadata alone |
| Storage.PendingCount | src/core/api/offlineFirstApi.ts:497-498 | a pending count is bounded by the queue and is zero exactly when no action of that kind is queued |
| Storage.PendingCountAppend | src/core/api/offlineFirstApi.ts:497-498 | queueing one action raises exactly its own kind's pending count by one |
| Storage.Stats | src/core/api/offlineFirstApi.ts:499 | the storage stats count the stored accounts and queued actions |
| Storage.Reset | src/core/api/offlineFirstApi.ts:520-522 | a reset empties accounts, transactions, queue and sync metadata |
| Storage.ResetEmptiesStats | src/core/api/offlineFirstApi.ts:520-522 | after a reset, no accounts and no pending actions are reported |
| Storage.StoreAccountIdempotent | src/core/api/offlineFirstApi.ts:408 | refreshing an account with the same data twice equals doing it once |
| Storage.StoreAccountsProvenance | src/core/api/offlineFirstApi.ts:396-398 | after storing fetched accounts, each id reads as before or as one of the fetched accounts |
| Storage.StoreAccountsIntoEmpty | src/core/api/offlineFirstApi.ts:305-307 | fetched accounts with distinct ids stored into an empty cache read back as exactly that list, in order |
| Storage.StoreAccountsAgain | src/core/api/offlineFirstApi.ts:396-398 | storing the same account list a second time changes nothing |
| Storage.StoreTransactionsIntoEmpty | src/core/api/offlineFirstApi.ts:421-423 | a list of transactions with distinct keys stored into an empty table reads back as the same list in order |
| Storage.StoreTransactionsAgain | src/core/api/offlineFirstApi.ts:421-423 | storing the same transaction list a second time changes nothing |
| Storage.OfAccountOfOwn | src/core/api/offlineFirstApi.ts:177 | selecting an account's transactions from a list holding only that account's transactions gives the whole list |
| ApiErrors.CreateApiError | src/core/api/offlineFirstApi.ts:461-468 | the error envelope carries the code and the original value, a non-empty message, and is retryable exactly when the classifier says so |
| ApiErrors.RetryableCases | src/core/api/offlineFirstApi.ts:470-487 | only `name` and `status` decide retryability: the message never matters, a thrown non-Error object with the same fields classifies like an Error (a plain object with status 503 is retryable), a value with none of the fields is never retryable, and a 4xx status other than 408 is not retryable |
| ApiErrors.HttpFailureNeverRetryable | src/core/api/offlineFirstApi.ts:431-459 | a failed HTTP response, thrown without a status, is never retryable |
| ApiErrors.FetchFailureRetryable | src/core/api/offlineFirstApi.ts:470-474 | an unreachable network (`fetch` rejecting with a TypeError) is retryable |
| ApiErrors.CreateApiErrorMessage | src/core/api/offlineFirstApi.ts:464 | the envelope's message is the thrown message, or 'An unknown error occurred' when there is none |
| OfflineFirstApi.RefreshAccounts | src/core/api/offlineFirstApi.ts:392-403 | a delivered background list is stored, so each account whose id does not recur later in it reads back, and ids not in it keep their record; a failed refresh leaves the store unchanged; queue and transactions are never touched |
| OfflineFirstApi.GetAccounts | src/core/api/offlineFirstApi.ts:94-136 | offline with a cache: the cache, tagged cached/cache, no request, store unchanged. Online with a cache: the cache plus one refresh request, and the store is the refreshed one. Online with an empty cache: the network data tagged network, stored and then refreshed, or ACCOUNTS_FETCH_FAILED wrapping the failure with only the refresh applied. Offline and empty: a non-retryable ACCOUNTS_FETCH_FAILED, no request. The queue is never touched. |
| OfflineFirstApi.RefreshAccount | src/core/api/offlineFirstApi.ts:405-413 | a delivered account becomes readable by its id while every other account, the transactions and the queue are kept; a failure changes nothing |
| OfflineFirstApi.GetAccount | src/core/api/offlineFirstApi.ts:138-172 | a cache hit is answered from the cache, with one refresh request when online whose delivered account is stored; an online miss returns and stores the fetched account, or ACCOUNT_FETCH_FAILED with the store unchanged; an offline miss is ACCOUNT_FETCH_FAILED naming the account, with no request; see also lines 317-329 |
| OfflineFirstApi.RefreshTransactions | src/core/api/offlineFirstApi.ts:415-428 | a delivered background list is stored, so each transaction whose key does not recur later in it reads back, and other keys keep their record; a failed refresh leaves the store unchanged; accounts and queue are never touched |
| OfflineFirstApi.GetTransactions | src/core/api/offlineFirstApi.ts:174-208 | offline, the cached list is the answer even when empty, with no request and no error; online, a non-empty cache is answered with one refresh request and the refreshed store, and an empty cache with the fetched list, stored and then refreshed, or TRANSACTIONS_FETCH_FAILED with only the refresh applied; see also lines 331-347 |
| OfflineFirstApi.QueueWrite | src/core/api/offlineFirstApi.ts:218-229 | a queued write appends exactly one action of its kind, and the receipt is offline, not cached, status 'queued', with a handle naming the queued id |
| OfflineFirstApi.WriteOrQueue | src/core/api/offlineFirstApi.ts:211-246 | online and delivered, the server's answer with the store unchanged; offline, queued without a request; online and failed, queued after one request |
| OfflineFirstApi.PrepareTransfer | src/core/api/offlineFirstApi.ts:211-246 | a transfer is answered by the network iff online and the send succeeds; otherwise exactly one transfer action is queued and its id is returned as `transferId` with status 'queued'; see also lines 349-361 |
| OfflineFirstApi.QueueBillPayment | src/core/api/offlineFirstApi.ts:263-298 | a bill payment is answered by the network iff online and the send succeeds; otherwise exactly one bill-payment action is queued and its id is returned as `paymentId`; see also lines 377-389 |
| OfflineFirstApi.ExecuteTransfer | src/core/api/offlineFirstApi.ts:248-260 | execution succeeds iff online and the send succeeds; every failure is TRANSFER_EXECUTION_FAILED; offline it fails non-retryably with no request; the store is never changed; see also lines 363-375 |
| OfflineFirstApi.GetOfflineStatus | src/core/api/offlineFirstApi.ts:490-510 | the pending counts split the queue by kind, the last sync is reported iff a non-zero global time is recorded, and the cache size is the storage engine's |
| OfflineFirstApi.PendingKindsPartition | src/core/api/offlineFirstApi.ts:496-498 | every queued action is counted as exactly one of transfer or bill payment |
| OfflineFirstApi.ForceSyncNow | src/core/api/offlineFirstApi.ts:512-518 | the sync manager is reached iff online; offline it rejects with 'Cannot sync while offline'; online it resolves iff the drain resolves |
| OfflineFirstApi.ClearOfflineData | src/core/api/offlineFirstApi.ts:520-522 | clearing leaves no accounts and nothing pending |
| OfflineFirstApiProperties.FetchThenOfflineRead | src/core/api/offlineFirstApi.ts:107-110 | accounts fetched into an empty cache are answered from the cache by a later offline read; see also lines 125-127, 301-315 |
| OfflineFirstApiProperties.GetAccountsStoresOnlyServerData | src/core/api/offlineFirstApi.ts:113-127 | after `getAccounts`, each account reads as before or as something the server delivered; see also lines 392-403 |
| OfflineFirstApiProperties.OfflineReadsStayLocal | src/core/api/offlineFirstApi.ts:107-110 | offline, every read gives the same answer whatever the network would have said, issues no request and leaves the store unchanged; see also lines 161-166, 186-189 |
| OfflineFirstApiProperties.AccountFetchThenOfflineHit | src/core/api/offlineFirstApi.ts:138-172 | an account fetched online on a miss is afterwards an offline cache hit with the same record; see also lines 317-329 |
| OfflineFirstApiProperties.TransactionsFetchThenOfflineRead | src/core/api/offlineFirstApi.ts:174-208 | transactions fetched online into an empty cache are afterwards returned offline from the cache, cut to the limit; see also lines 331-347 |
| OfflineFirstApiProperties.QueuedTransferHandle | src/core/api/offlineFirstApi.ts:218-229 | a queued transfer's handle is a fresh id and raises the pending transfer count by one; see also lines 233-244 |
| OfflineFirstApiProperties.OfflineBillPaymentCounted | src/core/api/offlineFirstApi.ts:270-281 | an offline bill payment raises the reported pending bill payments by one and leaves pending transfers unchanged; see also lines 490-510 |
| OfflineFirstApiProperties.ExecuteNeverQueues | src/core/api/offlineFirstApi.ts:248-260 | under the same connectivity and network answer, executing succeeds exactly when preparing is answered by the network; where preparing queues, executing fails and leaves the queue and the pending count unchanged; see also lines 211-246 |
| OfflineFirstApiProperties.ClearThenStatus | src/core/api/offlineFirstApi.ts:490-510 | after clearing, the offline status reports nothing pending and no sync time; see also lines 520-522 |
| OfflineManager.Initial | src/hooks/useOfflineManager.ts:72-99 | the hook starts uninitialized, not syncing, not paused, with empty error and warning lists |
| OfflineManager.AddError | src/hooks/useOfflineManager.ts:128-131 | an error is appended at the end; warnings and the paused flag are untouched |
| OfflineManager.AddWarning | src/hooks/useOfflineManager.ts:299-302 | a warning is appended at the end; errors and the paused flag are untouched |
| OfflineManager.Initialize | src/hooks/useOfflineManager.ts:103-133 | initialization succeeds iff storage initialization, the security status read and the session check all answer; success records the security status; a failure, including a throwing security status read, appends exactly one error and leaves the hook uninitialized |
| OfflineManager.RefreshStats | src/hooks/useOfflineManager.ts:180-208 | a successful refresh records the store's counts, the pending counts, the last global sync time (none when zero or missing), the syncing flag and the security status, with `failedSyncs` 0; a failed one changes nothing; the lists are untouched |
| OfflineManager.ClearOfflineData | src/hooks/useOfflineManager.ts:211-226 | a successful clear resets the store and appends one warning; a failed one keeps the store and appends one error |
| OfflineManager.ValidateDataIntegrity | src/hooks/useOfflineManager.ts:228-248 | a valid report changes nothing; an invalid one adds a warning counting its errors; a thrown check adds an error and is reported as invalid with that error |
| OfflineManager.ForceSyncNow | src/hooks/useOfflineManager.ts:251-294 | the sync manager is called iff online and not paused; offline warns 'Cannot sync while offline', paused warns 'Sync is currently paused'; a called sync ends not syncing with one completion warning or one failure error |
| OfflineManager.PauseSync | src/hooks/useOfflineManager.ts:296-302 | pausing sets the paused flag and appends one warning |
| OfflineManager.ResumeSync | src/hooks/useOfflineManager.ts:304-319 | resuming clears the paused flag, appends one warning, and schedules a sync exactly when online |
| OfflineManager.WentOnline | src/hooks/useOfflineManager.ts:137-147 | the online handler sets `isOnline`, changes nothing else, and schedules a sync exactly when not paused |
| OfflineManager.WentOffline | src/hooks/useOfflineManager.ts:149-151 | the offline handler clears `isOnline` and touches nothing else |
| OfflineManager.ValidateSession | src/hooks/useOfflineManager.ts:322-349 | the answer is true iff the check answers true; an answer is recorded as `sessionActive`, with a warning when false; a thrown check appends one error |
| OfflineManager.RotateSecurityKeys | src/hooks/useOfflineManager.ts:351-367 | key rotation refreshes the stats and appends the success warning |
| OfflineManager.EnableBiometrics | src/hooks/useOfflineManager.ts:369-397 | `biometricEnabled` is set only when the setup answers true; otherwise it is unchanged and one "setup failed" warning or one error is appended |
| OfflineManager.DropIndex | src/hooks/useOfflineManager.ts:400-412 | filtering by index removes exactly the entry at an in-range index and keeps the rest in order; any other index changes nothing |
| OfflineManager.DismissError | src/hooks/useOfflineManager.ts:400-405 | dismissing an error removes exactly that entry, keeps the order of the rest, and leaves warnings alone; an out-of-range index changes nothing |
| OfflineManager.DismissWarning | src/hooks/useOfflineManager.ts:407-412 | dismissing a warning removes exactly that entry, keeps the order of the rest, and never touches errors |
| OfflineManagerProperties.Apply | src/hooks/useOfflineManager.ts:211-226 | among the manager's actions, only a successful clear changes the store |
| OfflineManagerProperties.SyncOnlyAppends | src/hooks/useOfflineManager.ts:251-294 | a forced sync keeps existing entries and appends at most one warning or error |
| OfflineManagerProperties.CheckOnlyAppends | src/hooks/useOfflineManager.ts:103-133 | initialization and the integrity check keep existing entries and append at most one; see also lines 228-248 |
| OfflineManagerProperties.SessionOnlyAppends | src/hooks/useOfflineManager.ts:322-349 | the session check keeps existing entries and appends at most one |
| OfflineManagerProperties.BiometricsOnlyAppend | src/hooks/useOfflineManager.ts:369-397 | biometric setup keeps existing entries and appends at most one |
| OfflineManagerProperties.StorageOnlyAppends | src/hooks/useOfflineManager.ts:180-226 | stats refresh, clearing and key rotation keep existing entries and append at most one; see also lines 351-367 |
| OfflineManagerProperties.FlagsOnlyAppend | src/hooks/useOfflineManager.ts:137-151 | pausing, resuming and connectivity events keep existing entries and append at most one; see also lines 296-319 |
| OfflineManagerProperties.StepOnlyAppends | src/hooks/useOfflineManager.ts:103-397 | every action other than a dismissal keeps existing errors and warnings in place and appends at most one to each |
| OfflineManagerProperties.RunOnlyAppends | src/hooks/useOfflineManager.ts:103-397 | over any sequence of non-dismissal actions, the error and warning lists only grow at the end |
| OfflineManagerProperties.OfflineCheckPrecedesPause | src/hooks/useOfflineManager.ts:252-266 | offline and paused, a forced sync gives the offline warning, not the paused one |
| OfflineManagerProperties.PauseGatesSync | src/hooks/useOfflineManager.ts:137-147 | after pausing, neither the online handler nor a forced sync syncs; after resuming online, a sync is scheduled; see also lines 260-266, 296-319 |
| OfflineManagerProperties.DismissUndoesAppend | src/hooks/useOfflineManager.ts:400-412 | dismissing the entry just appended restores the list |
| OfflineManagerProperties.HookAndClientSyncAgree | src/hooks/useOfflineManager.ts:251-294 | an unpaused hook reaches the sync manager exactly when the client would; offline both report 'Cannot sync while offline'; a drain failure adds one error; see also offlineFirstApi.ts lines 512-518 |
| TouchComponents.PressKey | src/shared/components/ui/TouchOptimizedComponents.tsx:93-111 | a key is appended only below `pinLength`; completion fires exactly when a press reaches `pinLength`, with the full PIN |
| TouchComponents.DeleteKey | src/shared/components/ui/TouchOptimizedComponents.tsx:113-120 | delete drops the last character of a non-empty PIN and does nothing on an empty one |
| TouchComponents.DeleteUndoesPress | src/shared/components/ui/TouchOptimizedComponents.tsx:93-120 | below the length limit, delete undoes a key press |
| TouchComponents.PinRunBounded | src/shared/components/ui/TouchOptimizedComponents.tsx:93-120 | over any sequence of presses and deletes, the PIN never exceeds `pinLength`, and every completion carries a full-length PIN |
| TouchComponents.Swap | src/shared/components/ui/TouchOptimizedComponents.tsx:86-88 | a shuffle step permutes the keys |
| TouchComponents.ApplySwaps | src/shared/components/ui/TouchOptimizedComponents.tsx:86-88 | any sequence of shuffle steps permutes the keys |
| TouchComponents.Keys | src/shared/components/ui/TouchOptimizedComponents.tsx:83-91 | the keys are a permutation of the ten digits, in order when not shuffled |
| TouchComponents.Layout | src/shared/components/ui/TouchOptimizedComponents.tsx:122-127 | the keypad has 12 cells: the first nine keys, an empty cell, the tenth key, and delete |
| TouchComponents.LayoutShowsEveryDigitOnce | src/shared/components/ui/TouchOptimizedComponents.tsx:83-91 | the keypad shows every digit exactly once; see also lines 122-127 |
| TouchComponents.HandleSwipe | src/shared/components/ui/TouchOptimizedComponents.tsx:223-237 | left advances below the last card, right goes back above the first, otherwise nothing changes; a move notifies the new card's id; the index stays within the list |
| TouchComponents.SwipeLeftThenRight | src/shared/components/ui/TouchOptimizedComponents.tsx:223-237 | below the last card, a left swipe followed by a right swipe returns to the same card |
| TouchComponents.SwipesStayInRange | src/shared/components/ui/TouchOptimizedComponents.tsx:223-237 | any sequence of swipes keeps the index within the account list |
| TouchComponents.Increment | src/shared/components/ui/TouchOptimizedComponents.tsx:480-485 | increment yields `value + step` capped at `max`, and `onChange` fires iff the value changes |
| TouchComponents.Decrement | src/shared/components/ui/TouchOptimizedComponents.tsx:487-492 | decrement yields `value - step` floored at `min`, and `onChange` fires iff the value changes |
| TouchComponents.PressPlus | src/shared/components/ui/TouchOptimizedComponents.tsx:506-512 | the + button does nothing while `value >= max`; otherwise it fires exactly when the increment changes the value, staying within `max`; see also lines 480-485 |
| TouchComponents.PressMinus | src/shared/components/ui/TouchOptimizedComponents.tsx:496-502 | the − button does nothing while `value <= min`; otherwise it fires exactly when the decrement changes the value, staying at or above `min`; see also lines 487-492 |
| TouchComponents.PressesMoveTheirWay | src/shared/components/ui/TouchOptimizedComponents.tsx:496-512 | with a non-negative step, a press that fires raises the value on + and lowers it on − |
| TouchComponents.UngatedHandlersCanReverse | src/shared/components/ui/TouchOptimizedComponents.tsx:480-492 | the handlers alone move an out-of-range value backwards (10 with max 5 becomes 5; −1 with min 0 becomes 0), while the disabled buttons ignore those presses |
| TouchComponents.StepsStayInRange | src/shared/components/ui/TouchOptimizedComponents.tsx:480-492 | a value within [min, max] stays within it after a step |
| TouchComponents.DecrementUndoesIncrement | src/shared/components/ui/TouchOptimizedComponents.tsx:480-492 | an uncapped increment is undone by a decrement |
| TouchComponents.StepsAtBoundsDoNotFire | src/shared/components/ui/TouchOptimizedComponents.tsx:480-492 | at the bound, a step toward it does not fire `onChange` |
| BackNavigation.BackTarget | src/shared/components/navigation/BackNavigationHandler.tsx:13-50 | main tabs get no navigation; sub-pages go to /wallet; the literal account patterns go to /account; /transfer/picture goes to /transfer; everything else goes to /wallet; always with replace |
| BackNavigation.ConcreteAccountPathGoesToWallet | src/shared/components/navigation/BackNavigationHandler.tsx:26-30 | a concrete account path does not match the literal pattern and goes back to /wallet; see also lines 45-48 |
| BackNavigation.BackReachesMainTab | src/shared/components/navigation/BackNavigationHandler.tsx:13-50 | from any page, at most two back presses reach a main tab |
| TabBar.ActiveTab | src/shared/components/layout/TabBar.tsx:119-132 | a tab is active exactly on its own path, plus /dashboard and / for the wallet |
| TabBar.AtMostOneActive | src/shared/components/layout/TabBar.tsx:119-132 | for any pathname at most one tab is active |
| TabBar.Look | src/shared/components/layout/TabBar.tsx:94-101 | the indicator shows iff active and not main; the label is orange iff active and main, black iff active and not main, grey otherwise; weight 700 iff active; see also lines 142, 151 |
| TabBar.AtMostOneHighlighted | src/shared/components/layout/TabBar.tsx:94-101 | at most one label is highlighted; see also lines 131-132, 151 |
| TabBar.LookFollowsActiveTab | src/shared/components/layout/TabBar.tsx:94-101 | a tab is bold iff it is the active tab, orange iff it is the active wallet tab, and shows the indicator iff it is the active tab and not the wallet; see also lines 119-151 |
| TabBar.DashboardHighlightsWallet | src/shared/components/layout/TabBar.tsx:131-132 | on the dashboard, the wallet label is orange and bold and no indicator shows; see also lines 142, 151 |
| TransactionItem.TypeText | src/features/transactions/components/TransactionItem.tsx:96-98 | a transfer is labelled '출금'; otherwise the label is '입금' exactly when the row is positive |
| TransactionItem.Magnitude | src/features/transactions/components/TransactionItem.tsx:109 | the displayed amount is the absolute value |
| TransactionItem.Render | src/features/transactions/components/TransactionItem.tsx:93-113 | the row is blue iff type '입금' or amount > 0; the label as above; the magnitude is the absolute amount; the balance shows iff `showBalance` |
| TransactionItem.LabelAgreesWithColor | src/features/transactions/components/TransactionItem.tsx:93-98 | apart from transfers, a '입금' label and the positive colour always go together |
| TransactionItem.MagnitudeIgnoresSign | src/features/transactions/components/TransactionItem.tsx:109 | negating the amount does not change the displayed magnitude |
| TransactionItem.IncomingTransferMixesSignals | src/features/transactions/components/TransactionItem.tsx:93-98 | a transfer with a positive amount is drawn blue but labelled '출금' |
| StableCallback.ThrottledCall | src/shared/hooks/useStableCallback.ts:56-62 | a throttled call runs iff at least `delay` has passed since the last run; a run records `now` and returns the function's result; a suppressed call returns undefined and changes nothing |
| StableCallback.FirstCallRuns | src/shared/hooks/useStableCallback.ts:52-62 | with the ref starting at 0, a first call at or after `delay` runs |
| StableCallback.RunTimes | src/shared/hooks/useStableCallback.ts:52-62 | a call at least `delay` after the last run runs, a call too early is skipped and does not move the last run; run times are among the call times and never outnumber the calls |
| StableCallback.RunsAreSpaced | src/shared/hooks/useStableCallback.ts:52-62 | consecutive executions are at least `delay` apart, the first at least `delay` after the initial ref |
| StableCallback.SpacedPairwise | src/shared/hooks/useStableCallback.ts:52-62 | with a non-negative delay, neighbour spacing gives spacing between any two runs |
| StableCallback.ThrottledRunsApart | src/shared/hooks/useStableCallback.ts:52-62 | any two executed throttled calls are at least `delay` apart |
| StableCallback.ClearTimeout | src/shared/hooks/useStableCallback.ts:34-36 | clearing a timer drops exactly the pending timer with that id |
| StableCallback.DebounceStart | src/shared/hooks/useStableCallback.ts:29-31 | on the first render the function ref holds `fn`, no timer is pending or referenced, and nothing has run |
| StableCallback.Rerender | src/shared/hooks/useStableCallback.ts:31 | a re-render points the function ref at the new function and leaves pending timers and past runs alone |
| StableCallback.DebouncedCall | src/shared/hooks/useStableCallback.ts:33-41 | a debounced call cancels the timer the ref names, schedules one new timer with its arguments, and points the ref at it |
| StableCallback.Elapse | src/shared/hooks/useStableCallback.ts:38-40 | a firing timer runs the function current at fire time with that timer's arguments |
| StableCallback.StepKeepsOnePending | src/shared/hooks/useStableCallback.ts:33-41 | every call, render or timer firing keeps at most one timer pending |
| StableCallback.RunKeepsOnePending | src/shared/hooks/useStableCallback.ts:33-41 | over any event sequence at most one invocation is pending |
| StableCallback.RunsAtMostOncePerCall | src/shared/hooks/useStableCallback.ts:33-41 | the debounced function runs at most once per call |
| StableCallback.LastCallWins | src/shared/hooks/useStableCallback.ts:29-41 | after a call, re-renders and the timer firing, exactly one run happens, with the last call's arguments and the latest function |
| DashboardHeader.LocalPart | src/shared/components/layout/DashboardHeader.tsx:127-128 | the name taken from an e-mail is its prefix before the first '@' and contains no '@' |
| DashboardHeader.LocalPartWithoutAt | src/shared/components/layout/DashboardHeader.tsx:127-128 | an address without '@' is used whole |
| DashboardHeader.UserName | src/shared/components/layout/DashboardHeader.tsx:121-129 | a truthy prop name wins, then a truthy user name, then the e-mail's local part, else '사용자' |
| DashboardHeader.Greeting | src/shared/components/layout/DashboardHeader.tsx:135 | the rendered text is exactly the resolved name followed by '님' |
| DashboardHeader.GreetingHidesAddress | src/shared/components/layout/DashboardHeader.tsx:121-129 | without a prop name, and when the user's name has no '@', the shown name contains no '@' |
| DashboardHeader.EmptyPropFallsThrough | src/shared/components/layout/DashboardHeader.tsx:122-126 | an empty prop name is not truthy and falls through to the user's name |

## Left out

- Transport (`makeNetworkRequest`): `fetch`, the abort timeout, the bearer token and JSON parsing. It is replaced by the `NetOutcome` parameter. The `fetch*FromNetwork` and `send*` helpers are folded into the reads and writes that call them.
- `NetworkStatus` and its listeners: the online flag is a parameter of each call.
- Storage internals: the local store is modelled only through the calls the client makes. Failures of the store's own reads and writes (for example a rejected `getAllAccounts` or `storeAccount`) are not modelled. In particular, when the offline `queueTransfer` or `queueBillPayment` itself rejects, the `catch` blocks of `prepareTransfer` and `queueBillPayment` call the same enqueue a second time; that retry is not modelled. The store's identifier counter across a reset is not visible to its callers; `Storage.Reset` keeps it.
- The order of `getTransactionsByAccount`'s result (by date, in the store) is not modelled. `Storage.TransactionsByAccount` keeps stored order.
- The order of `getAllAccounts`'s result is up to the store. The model chooses insertion order, so `Storage.AllAccounts`, `Storage.StoreAccountsIntoEmpty` and `OfflineFirstApiProperties.FetchThenOfflineRead` speak of "in order" under that choice.
- Thrown `null` or `undefined`: `createApiError` reads `.message` off the thrown value and would itself throw a `TypeError`. The model has no such value, and `NonErrorValue` stands for a thrown value without `name`, `message` or `status` fields. Other fields of thrown objects are not modelled.
- The sync manager's drain, backoff and retry limits: `forceSyncNow` takes the drain's outcome as a parameter.
- `timestamp` in response envelopes and all `Date.now()` values other than the throttle clock.
- `OfflineFirstApi.GetAccounts`: the background refresh is fire-and-forget and may interleave with the caller; it is applied sequentially after the call's answer.
- `OfflineFirstApi.GetTransactions`: the same sequential treatment of the background refresh.
- The 5-second `setInterval` stats refresh and the 1-second `setTimeout` before an automatic sync: scheduling is reported as a boolean, and `RefreshStats` is a separate step.
- `OfflineManager.RotateSecurityKeys`: its failure branch cannot be reached because the stats refresh never throws, so it is not modelled.
- Console logging, haptics, the random shuffle comparator (modelled as an arbitrary sequence of swaps), swipe and pull-to-refresh gesture maths, and all styling.
- `TouchComponents.HandleSwipe`: when the account list has shrunk below the current index and `onAccountChange` is provided, the source reads a missing account and throws; without the callback nothing is read. The model reports no notification in both cases.
- `TouchComponents.StepsStayInRange`: requires a non-negative step; with a negative step the clamps can push the value past the opposite bound.
- JavaScript numbers: the stepper's value, step and bounds, transaction amounts and the throttle clock are `number`s in the source and unbounded integers here; fractional values and floating-point rounding are not modelled.
- `TouchComponents.DecrementUndoesIncrement`: holds for integer values and steps only; with fractional steps floating-point rounding can break it (0.1 + 0.2 - 0.2 is not 0.1).
- `StableCallback.ThrottledRunsApart`: requires a non-negative delay; with a negative delay only consecutive runs are guaranteed `delay` apart (`StableCallback.RunsAreSpaced`).
- `useStableCallback` itself appears only as the function ref that the throttled and debounced wrappers read at call or fire time (`current` in `StableCallback.Debounce`).
- `formatCurrency` and the date formatting of `TransactionItem`; the header's click handlers and icons.

=== FILE: api_errors.dfy ===
/**
 * Thrown values and the client's error envelope: `createApiError` and the
 * `isRetryableError` classifier of the offline-first API client.
 */
module ApiErrors {
  import opened Base
  import Text

  /**
   * A value reaching a `catch` block: an `Error` object (its `name`,
   * `message` and, for transport errors that carry one, `status`); an object
   * that is not an `Error` but carries the same fields, which the client's
   * classifier reads just the same; or a thrown value with none of these
   * fields, such as a string or a number. A missing `name` or `message`
   * reads as the empty string.
   */
  datatype Thrown =
    | JsError(name: string, message: string, status: Option<int>)
    | ErrorLike(name: string, message: string, status: Option<int>)
    | NonErrorValue

  /** `new Error(message)`: named `Error`, without a status. */
  function PlainError(message: string): Thrown {
    JsError("Error", message, None)
  }

  /**
   * The failure `makeNetworkRequest` throws for a non-2xx response: a plain
   * `Error` whose message quotes the status, with no `status` field.
   */
  function HttpFailure(status: nat, statusText: string): Thrown {
    PlainError("HTTP " + Text.NatToString(status) + ": " + statusText)
  }

  /** The failure `fetch` itself raises when the network is unreachable. */
  function FetchFailure(message: string): Thrown {
    JsError("TypeError", message, None)
  }

  /** The envelope every hard failure of the client is wrapped into. */
  datatype ApiError = ApiError(code: string, message: string, details: Thrown, retryable: bool)

  const UnknownErrorMessage: string := "An unknown error occurred"

  /** `isRetryableError`: network-level names, server errors and request timeouts. */
  predicate IsRetryable(e: Thrown) {
    && !e.NonErrorValue?
    && (|| e.name == "TypeError"
        || e.name == "NetworkError"
        || (e.status.Some? && e.status.value >= 500)
        || (e.status.Some? && e.status.value == 408))
  }

  /** The text of a thrown value, or `default` when it has none (`message || default`). */
  function MessageOr(e: Thrown, default: string): string {
    if !e.NonErrorValue? && e.message != "" then e.message else default
  }

  /** `createApiError(code, error)`. */
  function CreateApiError(code: string, e: Thrown): (r: ApiError)
    ensures r.code == code && r.details == e
    ensures r.message != ""
    ensures r.retryable <==> IsRetryable(e)
  {
    ApiError(code, MessageOr(e, UnknownErrorMessage), e, IsRetryable(e))
  }

  /**
   * What the classifier looks at: only the `name` and `status` fields. The
   * message never matters, and neither does whether the value is an
   * `Error` at all, so a thrown plain object with a 5xx status is
   * retryable; a value with none of the fields never is, and an error with
   * a client-error status other than 408 is not retryable either.
   */
  lemma RetryableCases(name: string, m1: string, m2: string, status: Option<int>)
    ensures IsRetryable(JsError(name, m1, status)) == IsRetryable(JsError(name, m2, status))
    ensures IsRetryable(ErrorLike(name, m1, status)) == IsRetryable(JsError(name, m2, status))
    ensures IsRetryable(ErrorLike("", "", Some(503)))
    ensures !IsRetryable(NonErrorValue)
    ensures name != "TypeError" && name != "NetworkError" && status.Some? &&
            400 <= status.value < 500 && status.value != 408 ==>
              !IsRetryable(JsError(name, m1, status))
  {
  }

  /**
   * A non-2xx response never classifies as retryable, whatever its status:
   * the transport drops the status when it throws.
   */
  lemma HttpFailureNeverRetryable(status: nat, statusText: string)
    ensures !IsRetryable(HttpFailure(status, statusText))
    ensures !CreateApiError("ACCOUNTS_FETCH_FAILED", HttpFailure(status, statusText)).retryable
  {
  }

  /** An unreachable network (`fetch` rejecting with a `TypeError`) is retryable. */
  lemma FetchFailureRetryable(message: string)
    ensures IsRetryable(FetchFailure(message))
    ensures CreateApiError("ACCOUNTS_FETCH_FAILED", FetchFailure(message)).retryable
  {
  }

  /**
   * The message of an error envelope is the thrown message when there is
   * one, and the fixed fallback text otherwise.
   */
  lemma CreateApiErrorMessage(code: string, e: Thrown)
    ensures !e.NonErrorValue? && e.message != "" ==> CreateApiError(code, e).message == e.message
    ensures e.NonErrorValue? || e.message == "" ==> CreateApiError(code, e).message == UnknownErrorMessage
  {
  }
}

=== FILE: back_navigation.dfy ===
/** The browser back-button handler (`handlePopState`): current path to back target. */
module BackNavigation {
  import opened Base

  /** A `navigate(to, { replace })` call. */
  datatype Navigation = Navigate(to: string, replace: bool)

  /** The five main tabs, where the back button keeps the browser's own behaviour. */
  const MainTabs: set<string> := {"/wallet", "/shop", "/assets", "/benefits", "/menu"}

  /** The sub-pages that go back to the wallet. */
  const SubPages: set<string> := {"/account", "/transfer", "/transactions", "/comprehensive-account"}

  /**
   * The route patterns of the account detail pages. The switch compares the
   * current path with these literal strings, so only a path spelled exactly
   * like the pattern matches them.
   */
  const AccountDetailPatterns: set<string> := {"/account/:accountId", "/account/:accountId/transactions"}

  /**
   * The navigation the back button triggers on `path`, or `None` when the
   * handler leaves the browser's own history step alone.
   */
  function BackTarget(path: string): (r: Option<Navigation>)
    ensures r.None? <==> path in MainTabs
    ensures r.Some? ==> r.value.replace && r.value.to in {"/wallet", "/account", "/transfer"}
    ensures path in SubPages ==> r == Some(Navigate("/wallet", true))
    ensures path in AccountDetailPatterns ==> r == Some(Navigate("/account", true))
    ensures path == "/transfer/picture" ==> r == Some(Navigate("/transfer", true))
    ensures path !in MainTabs + SubPages + AccountDetailPatterns + {"/transfer/picture"} ==>
              r == Some(Navigate("/wallet", true))
  {
    if path in SubPages then Some(Navigate("/wallet", true))
    else if path in AccountDetailPatterns then Some(Navigate("/account", true))
    else if path == "/transfer/picture" then Some(Navigate("/transfer", true))
    else if path in MainTabs then None
    else Some(Navigate("/wallet", true))
  }

  /**
   * A concrete account page such as `/account/123` is not matched by the
   * literal route patterns and falls to the default: back goes to the wallet.
   */
  lemma ConcreteAccountPathGoesToWallet(accountId: string)
    requires |accountId| > 0 && accountId[0] != ':'
    ensures BackTarget("/account/" + accountId) == Some(Navigate("/wallet", true))
  {
    var p := "/account/" + accountId;
    assert p[9] == accountId[0];
    assert |p| > 9 && p[8] == '/';
    assert p !in AccountDetailPatterns by {
      assert "/account/:accountId"[9] == ':';
      assert "/account/:accountId/transactions"[9] == ':';
    }
    assert p !in SubPages by {
      assert |"/account"| == 8 && |"/transfer"| == 9;
      assert "/transactions"[8] != '/' && "/comprehensive-account"[8] != '/';
    }
    assert p != "/transfer/picture" by { assert "/transfer/picture"[1] != p[1]; }
    assert p !in MainTabs by {
      assert |"/wallet"| <= 9 && |"/shop"| <= 9 && |"/assets"| <= 9 && |"/benefits"| == 9 && |"/menu"| <= 9;
    }
  }

  /**
   * Back navigation always ends on a main tab: from any page, following the
   * targets takes at most two presses to reach one.
   */
  lemma BackReachesMainTab(path: string)
    ensures var first := BackTarget(path);
            first.Some? ==>
              first.value.to in MainTabs ||
              (BackTarget(first.value.to).Some? && BackTarget(first.value.to).value.to in MainTabs)
  {
    var first := BackTarget(path);
    if first.Some? && first.value.to != "/wallet" {
      assert first.value.to in SubPages;
    }
  }
}

=== FILE: base.dfy ===
/** Failure-compatible wrappers shared by every module of the model. */
module Base {

  /** A value that may be absent (JavaScript `undefined`/`null`). */
  datatype Option<+T> = None | Some(value: T)

  /** The outcome of an operation that either succeeds or reports an error. */
  datatype Result<+T, +E> = Ok(value: T) | Err(error: E)
}

=== FILE: dashboard_header.dfy ===
/** The dashboard header's greeting: which name is shown for the signed-in user. */
module DashboardHeader {
  import opened Base
  import Text

  /** The parts of the authenticated user the header reads. */
  datatype User = User(name: Option<string>, email: Option<string>)

  const DefaultName := "사용자"
  const Honorific := "님"

  /** JavaScript truthiness of an optional string: present and non-empty. */
  predicate Truthy(s: Option<string>) {
    s.Some? && s.value != ""
  }

  /** `email.split('@')[0]`: everything before the first '@'. */
  function LocalPart(email: string): (r: string)
    ensures Text.IsPrefix(r, email)
    ensures '@' !in r
    ensures |r| < |email| ==> email[|r|] == '@'
  {
    if email == [] || email[0] == '@' then []
    else [email[0]] + LocalPart(email[1..])
  }

  /** An address with no '@' is used whole. */
  lemma LocalPartWithoutAt(email: string)
    requires '@' !in email
    ensures LocalPart(email) == email
  {
  }

  /** The name shown: the prop, else the user's name, else the address's local part, else the default. */
  function UserName(propUserName: Option<string>, user: Option<User>): (r: string)
    ensures Truthy(propUserName) ==> r == propUserName.value
    ensures !Truthy(propUserName) && user.Some? && Truthy(user.value.name) ==> r == user.value.name.value
    ensures (!Truthy(propUserName) && !(user.Some? && Truthy(user.value.name)) &&
             user.Some? && Truthy(user.value.email)) ==> r == LocalPart(user.value.email.value)
    ensures (!Truthy(propUserName) && !(user.Some? && (Truthy(user.value.name) || Truthy(user.value.email)))) ==>
              r == DefaultName
  {
    if Truthy(propUserName) then propUserName.value
    else if user.Some? && Truthy(user.value.name) then user.value.name.value
    else if user.Some? && Truthy(user.value.email) then LocalPart(user.value.email.value)
    else DefaultName
  }

  /** The greeting text: the name followed by the honorific. */
  function Greeting(propUserName: Option<string>, user: Option<User>): (r: string)
    ensures |r| == |UserName(propUserName, user)| + 1
    ensures r[..|r| - 1] == UserName(propUserName, user)
    ensures r[|r| - 1] == '님'
  {
    UserName(propUserName, user) + Honorific
  }

  /** The greeting never shows an e-mail address: no '@' unless the name itself had one. */
  lemma GreetingHidesAddress(propUserName: Option<string>, user: Option<User>)
    requires !Truthy(propUserName)
    requires user.Some? ==> user.value.name.Some? ==> '@' !in user.value.name.value
    ensures '@' !in UserName(propUserName, user)
  {
  }

  /** An empty prop name falls through to the user, as JavaScript truthiness does. */
  lemma EmptyPropFallsThrough(user: User)
    requires Truthy(user.name)
    ensures UserName(Some(""), Some(user)) == user.name.value
  {
  }
}

=== FILE: offline_first_api.dfy ===
/**
 * The offline-first API client (`OfflineFirstApiClient`): cache-first reads
 * with a background refresh, network-first writes that fall back to the
 * action queue, and the utility calls over the store and the sync manager.
 *
 * Every call is a pure step: it takes the online flag, the store, and the
 * outcome of each network request it may issue, and returns the result
 * handed to the caller, the store afterwards, and how many network requests
 * it issued. A background refresh is fire-and-forget in the source; here its
 * outcome is applied to the store after the call's own result is decided.
 */
module OfflineFirstApi {
  import opened Base
  import opened Table
  import opened Storage
  import opened ApiErrors
  import SyncManager

  /** Where a response's data came from. */
  datatype Source = Network | Cache | Offline

  /** The response envelope (`ApiResponse`); its timestamp is not modelled. */
  datatype Response<T> = Response(data: T, cached: bool, source: Source)

  /** The outcome of one network request: the parsed body, or what it threw. */
  datatype NetOutcome<T> = Delivered(data: T) | Failed(error: Thrown)

  /** The result of one client call, the store it leaves, and the requests it issued. */
  datatype Step<T> = Step(result: Result<Response<T>, ApiError>, store: Store, requests: nat)

  const AccountsFetchFailed: string := "ACCOUNTS_FETCH_FAILED"
  const AccountFetchFailed: string := "ACCOUNT_FETCH_FAILED"
  const TransactionsFetchFailed: string := "TRANSACTIONS_FETCH_FAILED"
  const TransferExecutionFailed: string := "TRANSFER_EXECUTION_FAILED"

  /** A response served from the local store. */
  function FromCache<T>(data: T): Response<T> {
    Response(data, true, Cache)
  }

  /** A response served by the network. */
  function FromNetwork<T>(data: T): Response<T> {
    Response(data, false, Network)
  }

  /** The data a request delivered, or nothing when it failed. */
  function DeliveredOrEmpty<T>(o: NetOutcome<seq<T>>): seq<T> {
    if o.Delivered? then o.data else []
  }

  // ---------------------------------------------------------------- reads

  /**
   * `updateAccountsFromNetwork`: a delivered list is stored account by
   * account; a failure is logged and leaves the store as it was.
   */
  function RefreshAccounts(s: Store, bg: NetOutcome<seq<Account>>): (r: Store)
    ensures bg.Failed? ==> r == s
    ensures bg.Delivered? ==> r == StoreAccounts(s, bg.data)
    ensures bg.Delivered? ==> forall i {:trigger LaterIds(bg.data, i)} ::
              0 <= i < |bg.data| && bg.data[i].id !in LaterIds(bg.data, i) ==>
                Storage.GetAccount(r, bg.data[i].id) == Some(bg.data[i])
    ensures forall id :: id !in AccountIds(DeliveredOrEmpty(bg)) ==> Storage.GetAccount(r, id) == Storage.GetAccount(s, id)
    ensures r.queue == s.queue && r.transactions == s.transactions
  {
    match bg
    case Delivered(accounts) => StoreAccounts(s, accounts)
    case Failed(_) => s
  }

  /**
   * `getAccounts()`. A non-empty cache is always answered from the cache;
   * when online the list is also refreshed in the background. An empty cache
   * is filled from the network when online, and is an error when offline.
   */
  function GetAccounts(online: bool, s: Store, fg: NetOutcome<seq<Account>>, bg: NetOutcome<seq<Account>>)
    : (r: Step<seq<Account>>)
    ensures !online && |AllAccounts(s)| > 0 ==>
              r == Step(Ok(FromCache(AllAccounts(s))), s, 0)
    ensures online && |AllAccounts(s)| > 0 ==>
              r.result == Ok(FromCache(AllAccounts(s))) && r.requests == 1
    ensures online && |AllAccounts(s)| == 0 && fg.Delivered? ==>
              r.result == Ok(FromNetwork(fg.data)) && r.requests == 2
    ensures online && |AllAccounts(s)| == 0 && fg.Failed? ==>
              r.result == Err(CreateApiError(AccountsFetchFailed, fg.error)) && r.requests == 2
    ensures !online && |AllAccounts(s)| == 0 ==>
              r.store == s && r.requests == 0 &&
              r.result.Err? && r.result.error.code == AccountsFetchFailed && !r.result.error.retryable
    ensures online && (|AllAccounts(s)| > 0 || fg.Failed?) ==> r.store == RefreshAccounts(s, bg)
    ensures online && |AllAccounts(s)| == 0 && fg.Delivered? ==>
              r.store == RefreshAccounts(StoreAccounts(s, fg.data), bg)
    ensures r.store.queue == s.queue
  {
    var cached := AllAccounts(s);
    if !online && |cached| > 0 then
      Step(Ok(FromCache(cached)), s, 0)
    else if online && |cached| > 0 then
      Step(Ok(FromCache(cached)), RefreshAccounts(s, bg), 1)
    else if online then
      match fg
      case Delivered(accounts) =>
        Step(Ok(FromNetwork(accounts)), RefreshAccounts(StoreAccounts(s, accounts), bg), 2)
      case Failed(e) =>
        Step(Err(CreateApiError(AccountsFetchFailed, e)), RefreshAccounts(s, bg), 2)
    else
      Step(Err(CreateApiError(AccountsFetchFailed, PlainError("No account data available offline"))), s, 0)
  }

  /** `updateAccountFromNetwork(id)`: stores the delivered account, if any. */
  function RefreshAccount(s: Store, bg: NetOutcome<Account>): (r: Store)
    ensures bg.Failed? ==> r == s
    ensures bg.Delivered? ==> Storage.GetAccount(r, bg.data.id) == Some(bg.data)
    ensures forall id :: (bg.Failed? || id != bg.data.id) ==> Storage.GetAccount(r, id) == Storage.GetAccount(s, id)
    ensures r.queue == s.queue && r.transactions == s.transactions
  {
    match bg
    case Delivered(a) => StoreAccount(s, a)
    case Failed(_) => s
  }

  /**
   * `getAccount(id)`. A cache hit is answered from the cache (refreshed in
   * the background when online); a miss is fetched and stored when online,
   * and is an error naming the account when offline.
   */
  function GetAccount(online: bool, s: Store, id: string, fg: NetOutcome<Account>, bg: NetOutcome<Account>)
    : (r: Step<Account>)
    ensures Storage.GetAccount(s, id).Some? ==>
              r.result == Ok(FromCache(Storage.GetAccount(s, id).value)) &&
              r.requests == (if online then 1 else 0) && (!online ==> r.store == s)
    ensures Storage.GetAccount(s, id).Some? && online ==> r.store == RefreshAccount(s, bg)
    ensures Storage.GetAccount(s, id).None? && online && fg.Delivered? ==>
              r.result == Ok(FromNetwork(fg.data)) && r.requests == 1 &&
              r.store == StoreAccount(s, fg.data) &&
              Storage.GetAccount(r.store, fg.data.id) == Some(fg.data)
    ensures Storage.GetAccount(s, id).None? && online && fg.Failed? ==>
              r == Step(Err(CreateApiError(AccountFetchFailed, fg.error)), s, 1)
    ensures Storage.GetAccount(s, id).None? && !online ==>
              r.store == s && r.requests == 0 &&
              r.result == Err(CreateApiError(AccountFetchFailed,
                                PlainError("Account " + id + " not available offline")))
    ensures r.store.queue == s.queue
  {
    match Storage.GetAccount(s, id)
    case Some(a) =>
      if online then Step(Ok(FromCache(a)), RefreshAccount(s, bg), 1)
      else Step(Ok(FromCache(a)), s, 0)
    case None =>
      if !online then
        Step(Err(CreateApiError(AccountFetchFailed, PlainError("Account " + id + " not available offline"))), s, 0)
      else
        match fg
        case Delivered(a) => Step(Ok(FromNetwork(a)), StoreAccount(s, a), 1)
        case Failed(e) => Step(Err(CreateApiError(AccountFetchFailed, e)), s, 1)
  }

  /** `updateTransactionsFromNetwork`: stores the delivered transactions, if any. */
  function RefreshTransactions(s: Store, bg: NetOutcome<seq<Transaction>>): (r: Store)
    ensures bg.Failed? ==> r == s
    ensures bg.Delivered? ==> r == StoreTransactions(s, bg.data)
    ensures bg.Delivered? ==> forall i {:trigger LaterTxKeys(bg.data, i)} ::
              0 <= i < |bg.data| && TxKey(bg.data[i].accountId, bg.data[i].id) !in LaterTxKeys(bg.data, i) ==>
                Lookup(r.transactions, TxKey(bg.data[i].accountId, bg.data[i].id)) == Some(bg.data[i])
    ensures forall k :: k !in Keys(TransactionRows(DeliveredOrEmpty(bg))) ==> Lookup(r.transactions, k) == Lookup(s.transactions, k)
    ensures r.accounts == s.accounts && r.queue == s.queue
  {
    match bg
    case Delivered(txs) => StoreTransactions(s, txs)
    case Failed(_) => s
  }

  /**
   * `getTransactions(accountId, limit)`. Offline, the cached list is the
   * answer even when it is empty. Online, the list is refreshed in the
   * background, and an empty cache is filled from the network.
   */
  function GetTransactions(online: bool, s: Store, accountId: string, limit: nat,
                           fg: NetOutcome<seq<Transaction>>, bg: NetOutcome<seq<Transaction>>)
    : (r: Step<seq<Transaction>>)
    ensures !online ==> r == Step(Ok(FromCache(TransactionsByAccount(s, accountId, limit))), s, 0)
    ensures online && |TransactionsByAccount(s, accountId, limit)| > 0 ==>
              r.result == Ok(FromCache(TransactionsByAccount(s, accountId, limit))) && r.requests == 1
    ensures online && |TransactionsByAccount(s, accountId, limit)| == 0 && fg.Delivered? ==>
              r.result == Ok(FromNetwork(fg.data)) && r.requests == 2
    ensures online && |TransactionsByAccount(s, accountId, limit)| == 0 && fg.Failed? ==>
              r.result == Err(CreateApiError(TransactionsFetchFailed, fg.error)) && r.requests == 2
    ensures online && (|TransactionsByAccount(s, accountId, limit)| > 0 || fg.Failed?) ==>
              r.store == RefreshTransactions(s, bg)
    ensures online && |TransactionsByAccount(s, accountId, limit)| == 0 && fg.Delivered? ==>
              r.store == RefreshTransactions(StoreTransactions(s, fg.data), bg)
    ensures r.store.accounts == s.accounts && r.store.queue == s.queue
  {
    var cached := TransactionsByAccount(s, accountId, limit);
    if !online then
      Step(Ok(FromCache(cached)), s, 0)
    else if |cached| > 0 then
      Step(Ok(FromCache(cached)), RefreshTransactions(s, bg), 1)
    else
      match fg
      case Delivered(txs) =>
        Step(Ok(FromNetwork(txs)), RefreshTransactions(StoreTransactions(s, txs), bg), 2)
      case Failed(e) =>
        Step(Err(CreateApiError(TransactionsFetchFailed, e)), RefreshTransactions(s, bg), 2)
  }

  // --------------------------------------------------------------- writes

  /** The handle of a queued write: `transferId` or `paymentId`. */
  datatype Handle = TransferId(id: nat) | PaymentId(id: nat)

  /** The data of a write response: the server's body, or the queue receipt. */
  datatype WriteAck = Remote(body: Payload) | Queued(handle: Handle, status: string, message: string)

  const QueuedStatus: string := "queued"

  /** The queue kind a handle refers to. */
  function HandleKind(h: Handle): ActionKind {
    match h
    case TransferId(_) => TransferAction
    case PaymentId(_) => BillPaymentAction
  }

  /** Enqueues a write and builds the `source: 'offline'` receipt for it. */
  function QueueWrite(s: Store, kind: ActionKind, payload: Payload, message: string, requests: nat)
    : (r: Step<WriteAck>)
    ensures r.requests == requests
    ensures r.result.Ok? && r.result.value.source == Offline && !r.result.value.cached
    ensures r.result.value.data.Queued? && r.result.value.data.status == QueuedStatus
    ensures HandleKind(r.result.value.data.handle) == kind
    ensures r.store.queue == s.queue + [QueuedAction(r.result.value.data.handle.id, kind, payload)]
    ensures r.store.accounts == s.accounts && r.store.transactions == s.transactions
  {
    var q := Enqueue(s, kind, payload);
    var handle := match kind case TransferAction => TransferId(q.id) case BillPaymentAction => PaymentId(q.id);
    Step(Ok(Response(Queued(handle, QueuedStatus, message), false, Offline)), q.store, requests)
  }

  /**
   * The shared shape of `prepareTransfer` and `queueBillPayment`: online,
   * the request is sent; if offline, or if the request throws, the write is
   * queued and the queue's identifier is returned as its handle.
   */
  function WriteOrQueue(online: bool, s: Store, kind: ActionKind, payload: Payload,
                        net: NetOutcome<Payload>, offlineMessage: string, failureMessage: string)
    : (r: Step<WriteAck>)
    ensures r.result.Ok?
    ensures online && net.Delivered? ==> r == Step(Ok(FromNetwork(Remote(net.data))), s, 1)
    ensures !online ==> r == QueueWrite(s, kind, payload, offlineMessage, 0)
    ensures online && net.Failed? ==> r == QueueWrite(s, kind, payload, failureMessage, 1)
  {
    if online then
      match net
      case Delivered(body) => Step(Ok(FromNetwork(Remote(body))), s, 1)
      case Failed(_) => QueueWrite(s, kind, payload, failureMessage, 1)
    else QueueWrite(s, kind, payload, offlineMessage, 0)
  }

  /** `prepareTransfer(data)`. */
  function PrepareTransfer(online: bool, s: Store, payload: Payload, net: NetOutcome<Payload>)
    : (r: Step<WriteAck>)
    ensures r.result.Ok?
    ensures r.result.value.source == Network <==> online && net.Delivered?
    ensures r.result.value.source == Network ==> r.store == s && r.result.value.data == Remote(net.data)
    ensures r.result.value.source != Network ==>
              r.result.value.source == Offline &&
              r.result.value.data.Queued? && r.result.value.data.handle.TransferId? &&
              r.result.value.data.status == QueuedStatus &&
              r.store.queue == s.queue + [QueuedAction(r.result.value.data.handle.id, TransferAction, payload)]
    ensures r.requests == (if online then 1 else 0)
  {
    WriteOrQueue(online, s, TransferAction, payload, net,
                 "Transfer queued for processing when online",
                 "Transfer queued due to network error")
  }

  /** `queueBillPayment(data)`. */
  function QueueBillPayment(online: bool, s: Store, payload: Payload, net: NetOutcome<Payload>)
    : (r: Step<WriteAck>)
    ensures r.result.Ok?
    ensures r.result.value.source == Network <==> online && net.Delivered?
    ensures r.result.value.source == Network ==> r.store == s && r.result.value.data == Remote(net.data)
    ensures r.result.value.source != Network ==>
              r.result.value.source == Offline &&
              r.result.value.data.Queued? && r.result.value.data.handle.PaymentId? &&
              r.result.value.data.status == QueuedStatus &&
              r.store.queue == s.queue + [QueuedAction(r.result.value.data.handle.id, BillPaymentAction, payload)]
    ensures r.requests == (if online then 1 else 0)
  {
    WriteOrQueue(online, s, BillPaymentAction, payload, net,
                 "Bill payment queued for processing when online",
                 "Bill payment queued due to network error")
  }

  /**
   * `executeTransfer(id, confirmation)`: requires the network and is never
   * queued. Offline it fails without issuing a request; online it is the
   * network's answer, a failure wrapped as `TRANSFER_EXECUTION_FAILED`.
   */
  function ExecuteTransfer(online: bool, s: Store, transferId: string, confirmation: Payload,
                           net: NetOutcome<Payload>)
    : (r: Step<Payload>)
    ensures r.store == s
    ensures r.result.Ok? <==> online && net.Delivered?
    ensures r.result.Ok? ==> r.result.value == FromNetwork(net.data)
    ensures r.result.Err? ==> r.result.error.code == TransferExecutionFailed
    ensures !online ==> r.requests == 0 && !r.result.error.retryable
  {
    if !online then
      Step(Err(CreateApiError(TransferExecutionFailed,
                              PlainError("Transfer execution requires internet connection"))), s, 0)
    else
      match net
      case Delivered(body) => Step(Ok(FromNetwork(body)), s, 1)
      case Failed(e) => Step(Err(CreateApiError(TransferExecutionFailed, e)), s, 1)
  }

  // -------------------------------------------------------------- utility

  /** What `getOfflineStatus()` reports. */
  datatype OfflineStatus = OfflineStatus(
    pendingTransfers: nat, pendingBillPayments: nat, lastSync: Option<int>, cacheSize: nat)

  /**
   * `getOfflineStatus()`: the pending counts per kind, the global last-sync
   * time (a zero timestamp reads as never synced, as `|| null` does), and the
   * storage engine's size estimate.
   */
  function GetOfflineStatus(s: Store, totalSize: nat): (r: OfflineStatus)
    ensures r.pendingTransfers + r.pendingBillPayments == |s.queue|
    ensures r.lastSync.Some? <==> LastSyncTimestamp(s, "global").Some? && LastSyncTimestamp(s, "global").value != 0
    ensures r.lastSync.Some? ==> r.lastSync == LastSyncTimestamp(s, "global")
    ensures r.cacheSize == Stats(s, totalSize).totalSize
  {
    PendingKindsPartition(s.queue);
    var last := LastSyncTimestamp(s, "global");
    OfflineStatus(PendingTransfers(s), PendingBillPayments(s),
                  if last.Some? && last.value != 0 then last else None,
                  Stats(s, totalSize).totalSize)
  }

  /** Every queued action is counted under exactly one of the two kinds. */
  lemma {:induction false} PendingKindsPartition(q: seq<QueuedAction>)
    ensures PendingCount(q, TransferAction) + PendingCount(q, BillPaymentAction) == |q|
  {
    if |q| > 0 {
      PendingKindsPartition(q[1..]);
    }
  }

  /** What `forceSyncNow()` does: whether it reached the sync manager, and how it ended. */
  datatype SyncCall = SyncCall(delegated: bool, result: Result<(), Thrown>)

  /**
   * `forceSyncNow()`: offline it rejects without reaching the sync manager;
   * online it resolves or rejects as the sync manager's drain does.
   */
  function ForceSyncNow(online: bool, drain: SyncManager.SyncOutcome): (r: SyncCall)
    ensures r.delegated <==> online
    ensures !online ==> r.result == Err(PlainError("Cannot sync while offline"))
    ensures online ==> (r.result.Ok? <==> drain.Completed?)
  {
    if !online then SyncCall(false, Err(PlainError("Cannot sync while offline")))
    else
      match drain
      case Completed(_) => SyncCall(true, Ok(()))
      case Rejected(e) => SyncCall(true, Err(e))
  }

  /** `clearOfflineData()`: resets the store. */
  function ClearOfflineData(s: Store): (r: Store)
    ensures AllAccounts(r) == [] && PendingTransfers(r) == 0 && PendingBillPayments(r) == 0
    ensures r.nextActionId == s.nextActionId
  {
    Reset(s)
  }
}

=== FILE: offline_first_api_properties.dfy ===
/**
 * Properties relating several calls of the offline-first API client, and
 * properties of every call taken together.
 */
module OfflineFirstApiProperties {
  import opened Base
  import Table
  import opened Storage
  import opened ApiErrors
  import opened OfflineFirstApi

  /**
   * Fetch-then-read: online with an empty cache, a delivered list of
   * accounts is returned from the network; a later offline `getAccounts`
   * returns the same list from the cache. The background refresh either
   * failed or delivered the same list.
   */
  lemma FetchThenOfflineRead(s: Store, accounts: seq<Account>, bg: NetOutcome<seq<Account>>)
    requires s.accounts == [] && |accounts| > 0 && DistinctIds(accounts)
    requires bg.Failed? || bg == Delivered(accounts)
    ensures var first := GetAccounts(true, s, Delivered(accounts), bg);
            && first.result == Ok(Response(accounts, false, Network))
            && GetAccounts(false, first.store, Delivered([]), Failed(NonErrorValue)).result
               == Ok(Response(accounts, true, Cache))
  {
    var filled := StoreAccounts(s, accounts);
    StoreAccountsIntoEmpty(s, accounts);
    if bg.Delivered? {
      StoreAccountsAgain(s, accounts);
    }
    assert GetAccounts(true, s, Delivered(accounts), bg).store == filled;
  }

  /**
   * Reads only ever store what the server delivered: after `getAccounts`,
   * every account identifier looks up its previous record or an account
   * from the foreground or background response.
   */
  lemma GetAccountsStoresOnlyServerData(online: bool, s: Store, fg: NetOutcome<seq<Account>>,
                                        bg: NetOutcome<seq<Account>>, id: string)
    ensures var after := Storage.GetAccount(GetAccounts(online, s, fg, bg).store, id);
            after == Storage.GetAccount(s, id) ||
            (after.Some? && after.value in DeliveredOrEmpty(fg) + DeliveredOrEmpty(bg))
  {
    var cached := AllAccounts(s);
    var fgData, bgData := DeliveredOrEmpty(fg), DeliveredOrEmpty(bg);
    if online && |cached| == 0 && fg.Delivered? {
      var mid := StoreAccounts(s, fgData);
      StoreAccountsProvenance(s, fgData, id);
      if bg.Delivered? {
        StoreAccountsProvenance(mid, bgData, id);
      }
    } else if online && bg.Delivered? {
      StoreAccountsProvenance(s, bgData, id);
    }
  }

  /**
   * Offline, the network is never consulted: whatever the network would
   * have answered, each read gives the same result, leaves the store as it
   * was and issues no request.
   */
  lemma OfflineReadsStayLocal(s: Store, id: string, limit: nat,
                              fa: NetOutcome<seq<Account>>, ba: NetOutcome<seq<Account>>,
                              fa': NetOutcome<seq<Account>>, ba': NetOutcome<seq<Account>>,
                              f1: NetOutcome<Account>, b1: NetOutcome<Account>,
                              f1': NetOutcome<Account>, b1': NetOutcome<Account>,
                              ft: NetOutcome<seq<Transaction>>, bt: NetOutcome<seq<Transaction>>,
                              ft': NetOutcome<seq<Transaction>>, bt': NetOutcome<seq<Transaction>>)
    ensures GetAccounts(false, s, fa, ba) == GetAccounts(false, s, fa', ba')
    ensures GetAccounts(false, s, fa, ba).store == s && GetAccounts(false, s, fa, ba).requests == 0
    ensures OfflineFirstApi.GetAccount(false, s, id, f1, b1) == OfflineFirstApi.GetAccount(false, s, id, f1', b1')
    ensures OfflineFirstApi.GetAccount(false, s, id, f1, b1).store == s
    ensures OfflineFirstApi.GetAccount(false, s, id, f1, b1).requests == 0
    ensures GetTransactions(false, s, id, limit, ft, bt) == GetTransactions(false, s, id, limit, ft', bt')
    ensures GetTransactions(false, s, id, limit, ft, bt).store == s
    ensures GetTransactions(false, s, id, limit, ft, bt).requests == 0
  {
  }

  /**
   * Fetch-then-read for one account: a miss fetched online is stored under
   * its identifier, so the same `getAccount` offline is a cache hit with the
   * fetched record.
   */
  lemma AccountFetchThenOfflineHit(s: Store, id: string, a: Account, bg: NetOutcome<Account>,
                                   f: NetOutcome<Account>, b: NetOutcome<Account>)
    requires Storage.GetAccount(s, id).None? && a.id == id
    ensures var first := OfflineFirstApi.GetAccount(true, s, id, Delivered(a), bg);
            && first.result == Ok(Response(a, false, Network))
            && OfflineFirstApi.GetAccount(false, first.store, id, f, b) == Step(Ok(Response(a, true, Cache)), first.store, 0)
  {
  }

  /**
   * Fetch-then-read for transactions: online with nothing cached, a
   * delivered list of the account's transactions is returned from the
   * network; a later offline `getTransactions` returns the same list from
   * the cache when it fits the limit, and its first `limit` entries
   * otherwise. The background refresh either failed or delivered the same
   * list.
   */
  lemma TransactionsFetchThenOfflineRead(s: Store, accountId: string, limit: nat,
                                         txs: seq<Transaction>, bg: NetOutcome<seq<Transaction>>)
    requires s.transactions == [] && DistinctTxKeys(txs)
    requires forall i :: 0 <= i < |txs| ==> txs[i].accountId == accountId
    requires bg.Failed? || bg == Delivered(txs)
    ensures var first := GetTransactions(true, s, accountId, limit, Delivered(txs), bg);
            && first.result == Ok(Response(txs, false, Network))
            && GetTransactions(false, first.store, accountId, limit, Failed(NonErrorValue), Failed(NonErrorValue)).result
               == Ok(Response(if |txs| <= limit then txs else txs[..limit], true, Cache))
  {
    var filled := StoreTransactions(s, txs);
    assert Table.Values(s.transactions) == [];
    assert TransactionsByAccount(s, accountId, limit) == [];
    StoreTransactionsIntoEmpty(s, txs);
    OfAccountOfOwn(txs, accountId);
    if bg.Delivered? {
      StoreTransactionsAgain(s, txs);
    }
    assert GetTransactions(true, s, accountId, limit, Delivered(txs), bg).store == filled;
  }

  /**
   * A queued transfer's handle is durable and fresh: it names the one new
   * action at the end of the queue, no earlier action carries it, the
   * pending-transfer count grows by one and the bill-payment count does not.
   */
  lemma QueuedTransferHandle(online: bool, s: Store, payload: Payload, net: NetOutcome<Payload>)
    requires QueueIdsIssued(s)
    ensures var r := PrepareTransfer(online, s, payload, net);
            r.result.value.source == Offline ==>
              && QueueIdsIssued(r.store)
              && (forall i :: 0 <= i < |s.queue| ==> s.queue[i].id != r.result.value.data.handle.id)
              && PendingTransfers(r.store) == PendingTransfers(s) + 1
              && PendingBillPayments(r.store) == PendingBillPayments(s)
  {
    var r := PrepareTransfer(online, s, payload, net);
    if r.result.value.source == Offline {
      var a := QueuedAction(r.result.value.data.handle.id, TransferAction, payload);
      PendingCountAppend(s.queue, a, TransferAction);
      PendingCountAppend(s.queue, a, BillPaymentAction);
      assert Enqueue(s, TransferAction, payload).id == s.nextActionId;
    }
  }

  /**
   * The bill-payment counterpart: an offline payment is counted by
   * `getOfflineStatus` as one more pending bill payment, and the
   * pending-transfer count is unchanged.
   */
  lemma OfflineBillPaymentCounted(s: Store, payload: Payload, net: NetOutcome<Payload>, totalSize: nat)
    ensures var r := QueueBillPayment(false, s, payload, net);
            && GetOfflineStatus(r.store, totalSize).pendingBillPayments ==
               GetOfflineStatus(s, totalSize).pendingBillPayments + 1
            && GetOfflineStatus(r.store, totalSize).pendingTransfers ==
               GetOfflineStatus(s, totalSize).pendingTransfers
  {
    var r := QueueBillPayment(false, s, payload, net);
    var a := QueuedAction(r.result.value.data.handle.id, BillPaymentAction, payload);
    PendingCountAppend(s.queue, a, TransferAction);
    PendingCountAppend(s.queue, a, BillPaymentAction);
  }

  /**
   * `executeTransfer` against `prepareTransfer` under the same connectivity
   * and the same network answer: both succeed through the network in exactly
   * the same cases, but where preparing falls back to the queue, executing
   * fails and leaves the queue and the pending count as they were, so a
   * transfer is never finalized speculatively.
   */
  lemma ExecuteNeverQueues(online: bool, s: Store, id: string, confirmation: Payload,
                           payload: Payload, net: NetOutcome<Payload>)
    ensures var ex := ExecuteTransfer(online, s, id, confirmation, net);
            var prep := PrepareTransfer(online, s, payload, net);
            && (ex.result.Ok? <==> prep.result.value.source == Network)
            && ex.store.queue == s.queue
            && (ex.result.Err? ==> |prep.store.queue| == |s.queue| + 1)
            && PendingTransfers(ex.store) == PendingTransfers(s)
  {
  }

  /** After `clearOfflineData`, the offline status reports nothing pending and no sync. */
  lemma ClearThenStatus(s: Store)
    ensures GetOfflineStatus(ClearOfflineData(s), 0) == OfflineStatus(0, 0, None, 0)
  {
  }
}

=== FILE: offline_manager.dfy ===
/**
 * The offline manager hook (`useOfflineManager`) as a reducer over an
 * immutable state record. Each action takes the manager, the answers of the
 * collaborators it calls (storage, sync manager, security manager), and
 * returns the next manager. Scheduling a sync with `setTimeout` is reported
 * as a flag; the periodic stats refresh is the separate `RefreshStats` step.
 */
module OfflineManager {
  import opened Base
  import opened Storage
  import opened ApiErrors
  import SyncManager
  import Api = OfflineFirstApi
  import Text

  /** The security manager's compliance verdict. */
  datatype Compliance = Compliant | ComplianceWarning | Violation

  /** What `getSecurityStatus()` reports. */
  datatype SecurityStatus = SecurityStatus(
    sessionActive: bool, keysInitialized: bool, biometricEnabled: bool, complianceStatus: Compliance)

  /** The sync counters shown to the operator. */
  datatype SyncStats = SyncStats(
    lastSync: Option<int>, pendingTransfers: nat, pendingBillPayments: nat, failedSyncs: nat)

  /** `OfflineManagerState`. */
  datatype State = State(
    isOnline: bool,
    isInitialized: bool,
    isSyncing: bool,
    isSecure: bool,
    storageStats: StorageStats,
    syncStats: SyncStats,
    securityStats: SecurityStatus,
    errors: seq<string>,
    warnings: seq<string>)

  /** The hook's state together with the paused flag it keeps in a ref. */
  datatype Manager = Manager(state: State, syncPaused: bool)

  /** A collaborator call: it answers with a value or throws. */
  datatype Probe<T> = Answered(value: T) | Threw(error: Thrown)

  /** The collaborator readings one stats refresh combines. */
  datatype StatsSample = StatsSample(totalSize: nat, isSyncing: bool, security: SecurityStatus)

  /** What `validateDataIntegrity()` reports. */
  datatype IntegrityReport = IntegrityReport(valid: bool, errors: seq<string>)

  /** The manager after an action, and the value the action returns. */
  datatype Outcome<T> = Outcome(manager: Manager, value: T)

  /** The hook's initial state, given the browser's connectivity flag. */
  function Initial(online: bool): (m: Manager)
    ensures !m.state.isInitialized && !m.state.isSyncing && !m.syncPaused
    ensures m.state.errors == [] && m.state.warnings == []
  {
    Manager(
      State(online, false, false, false,
            StorageStats(0, 0, 0, 0),
            SyncStats(None, 0, 0, 0),
            SecurityStatus(false, false, false, Compliant),
            [], []),
      false)
  }

  /** `error instanceof Error ? error.message : 'Unknown error'`. */
  function ErrorText(e: Thrown): string {
    match e
    case JsError(_, message, _) => message
    case ErrorLike(_, _, _) => "Unknown error"
    case NonErrorValue => "Unknown error"
  }

  /** Appends one entry to `errors`. */
  function AddError(m: Manager, message: string): (r: Manager)
    ensures r.state.errors == m.state.errors + [message]
    ensures r.state.warnings == m.state.warnings
    ensures r.syncPaused == m.syncPaused
  {
    m.(state := m.state.(errors := m.state.errors + [message]))
  }

  /** Appends one entry to `warnings`. */
  function AddWarning(m: Manager, message: string): (r: Manager)
    ensures r.state.warnings == m.state.warnings + [message]
    ensures r.state.errors == m.state.errors
    ensures r.syncPaused == m.syncPaused
  {
    m.(state := m.state.(warnings := m.state.warnings + [message]))
  }

  /**
   * `initialize()`: clears `isInitialized`, initializes storage, reads the
   * security status and validates the session, in that order; the first
   * collaborator that throws decides the message. Any failure is appended to
   * `errors` and leaves the manager uninitialized; it is never thrown. The
   * session check's answer itself is not used.
   */
  function Initialize(m: Manager, storageInit: Probe<()>, security: Probe<SecurityStatus>, session: Probe<bool>)
    : (r: Manager)
    ensures r.state.isInitialized <==> storageInit.Answered? && security.Answered? && session.Answered?
    ensures r.state.isInitialized ==>
              r.state.errors == m.state.errors &&
              r.state.securityStats == security.value && r.state.isSecure == security.value.keysInitialized
    ensures storageInit.Answered? && security.Threw? ==>
              r.state.errors == m.state.errors + ["Initialization failed: " + ErrorText(security.error)]
    ensures !r.state.isInitialized ==>
              |r.state.errors| == |m.state.errors| + 1 && r.state.errors[..|m.state.errors|] == m.state.errors
    ensures r.state.warnings == m.state.warnings && r.syncPaused == m.syncPaused
  {
    var cleared := m.(state := m.state.(isInitialized := false));
    match (storageInit, security, session)
    case (Threw(e), _, _) => AddError(cleared, "Initialization failed: " + ErrorText(e))
    case (_, Threw(e), _) => AddError(cleared, "Initialization failed: " + ErrorText(e))
    case (_, _, Threw(e)) => AddError(cleared, "Initialization failed: " + ErrorText(e))
    case (Answered(_), Answered(status), Answered(_)) =>
      cleared.(state := cleared.state.(isInitialized := true,
                                       isSecure := status.keysInitialized,
                                       securityStats := status))
  }

  /**
   * `refreshStats()`: takes the storage counters, the offline status, the
   * sync manager's syncing flag and the security status. A failure is only
   * logged. `failedSyncs` is always reported as zero.
   */
  function RefreshStats(m: Manager, s: Store, sample: Probe<StatsSample>): (r: Manager)
    ensures sample.Threw? ==> r == m
    ensures sample.Answered? ==>
              && r.state.storageStats == Stats(s, sample.value.totalSize)
              && r.state.syncStats.pendingTransfers == PendingTransfers(s)
              && r.state.syncStats.pendingBillPayments == PendingBillPayments(s)
              && r.state.syncStats.failedSyncs == 0
              && (r.state.syncStats.lastSync.Some? <==>
                    LastSyncTimestamp(s, "global").Some? && LastSyncTimestamp(s, "global").value != 0)
              && (r.state.syncStats.lastSync.Some? ==> r.state.syncStats.lastSync == LastSyncTimestamp(s, "global"))
              && r.state.isSyncing == sample.value.isSyncing
              && r.state.securityStats == sample.value.security
    ensures r.state.errors == m.state.errors && r.state.warnings == m.state.warnings
    ensures r.syncPaused == m.syncPaused && r.state.isInitialized == m.state.isInitialized
  {
    match sample
    case Threw(_) => m
    case Answered(x) =>
      var status := Api.GetOfflineStatus(s, x.totalSize);
      m.(state := m.state.(
        isSyncing := x.isSyncing,
        storageStats := Stats(s, x.totalSize),
        syncStats := SyncStats(status.lastSync, status.pendingTransfers, status.pendingBillPayments, 0),
        securityStats := x.security))
  }

  /** A manager action that also changes the store. */
  datatype Cleared = Cleared(manager: Manager, store: Store)

  /**
   * `clearOfflineData()`: resets the store, refreshes the stats and appends
   * a warning; if the reset throws, the store is kept and an error appended.
   */
  function ClearOfflineData(m: Manager, s: Store, reset: Probe<()>, sample: Probe<StatsSample>): (r: Cleared)
    ensures reset.Answered? ==>
              r.store == Reset(s) &&
              r.manager.state.warnings == m.state.warnings + ["All offline data has been cleared"] &&
              r.manager.state.errors == m.state.errors
    ensures reset.Threw? ==>
              r.store == s && r.manager.state.warnings == m.state.warnings &&
              r.manager.state.errors == m.state.errors + ["Failed to clear offline data: " + ErrorText(reset.error)]
  {
    match reset
    case Answered(_) =>
      var s' := Reset(s);
      Cleared(AddWarning(RefreshStats(m, s', sample), "All offline data has been cleared"), s')
    case Threw(e) =>
      Cleared(AddError(m, "Failed to clear offline data: " + ErrorText(e)), s)
  }

  /**
   * `validateDataIntegrity()`: an invalid report adds a warning counting its
   * errors and is returned as is; a failure adds an error and is reported as
   * an invalid result carrying that error.
   */
  function ValidateDataIntegrity(m: Manager, report: Probe<IntegrityReport>): (r: Outcome<IntegrityReport>)
    ensures report.Answered? ==> r.value == report.value
    ensures report.Answered? && report.value.valid ==> r.manager == m
    ensures report.Answered? && !report.value.valid ==>
              r.manager == AddWarning(m, "Data integrity issues found: " +
                                         Text.NatToString(|report.value.errors|) + " errors")
    ensures report.Threw? ==>
              !r.value.valid && |r.value.errors| == 1 &&
              r.manager == AddError(m, r.value.errors[0])
  {
    match report
    case Answered(x) =>
      if x.valid then Outcome(m, x)
      else Outcome(AddWarning(m, "Data integrity issues found: " + Text.NatToString(|x.errors|) + " errors"), x)
    case Threw(e) =>
      var message := "Data validation failed: " + ErrorText(e);
      Outcome(AddError(m, message), IntegrityReport(false, [message]))
  }

  const OfflineSyncWarning: string := "Cannot sync while offline"
  const PausedSyncWarning: string := "Sync is currently paused"

  /**
   * `forceSyncNow()`. Offline (the browser's flag) it only warns; otherwise
   * paused it only warns; otherwise it runs the sync manager's drain,
   * appends one completion warning or one failure error, refreshes the
   * stats on a resolved drain, and always ends with `isSyncing` false. The
   * returned flag says whether the sync manager was called.
   */
  function ForceSyncNow(m: Manager, s: Store, online: bool, drain: SyncManager.SyncOutcome,
                        sample: Probe<StatsSample>)
    : (r: Outcome<bool>)
    ensures r.value <==> online && !m.syncPaused
    ensures !online ==> r.manager == AddWarning(m, OfflineSyncWarning)
    ensures online && m.syncPaused ==> r.manager == AddWarning(m, PausedSyncWarning)
    ensures r.value ==> !r.manager.state.isSyncing
    ensures r.value && drain.Completed? && drain.result.success ==>
              r.manager.state.errors == m.state.errors &&
              r.manager.state.warnings ==
                m.state.warnings + ["Sync completed: " + Text.NatToString(drain.result.syncedItems) + " items synced"]
    ensures r.value && drain.Completed? && !drain.result.success ==>
              r.manager.state.warnings == m.state.warnings &&
              r.manager.state.errors == m.state.errors + ["Sync failed: " + Text.Join(drain.result.errors, ", ")]
    ensures r.value && drain.Rejected? ==>
              r.manager.state.warnings == m.state.warnings &&
              r.manager.state.errors == m.state.errors + ["Sync failed: " + ErrorText(drain.error)]
    ensures r.manager.syncPaused == m.syncPaused
  {
    if !online then Outcome(AddWarning(m, OfflineSyncWarning), false)
    else if m.syncPaused then Outcome(AddWarning(m, PausedSyncWarning), false)
    else
      var syncing := m.(state := m.state.(isSyncing := true));
      var after :=
        match drain
        case Completed(x) =>
          var logged :=
            if x.success then AddWarning(syncing, "Sync completed: " + Text.NatToString(x.syncedItems) + " items synced")
            else AddError(syncing, "Sync failed: " + Text.Join(x.errors, ", "));
          RefreshStats(logged, s, sample)
        case Rejected(e) => AddError(syncing, "Sync failed: " + ErrorText(e));
      Outcome(after.(state := after.state.(isSyncing := false)), true)
  }

  /** `pauseSync()`: sets the paused flag and warns. */
  function PauseSync(m: Manager): (r: Manager)
    ensures r.syncPaused
    ensures r.state.warnings == m.state.warnings + ["Synchronization paused"]
    ensures r.state.errors == m.state.errors && r.state.isOnline == m.state.isOnline
  {
    AddWarning(m, "Synchronization paused").(syncPaused := true)
  }

  /**
   * `resumeSync()`: clears the paused flag, warns, and schedules a sync
   * exactly when the browser is online. The flag is that scheduling.
   */
  function ResumeSync(m: Manager, online: bool): (r: Outcome<bool>)
    ensures !r.manager.syncPaused
    ensures r.value == online
    ensures r.manager.state.warnings == m.state.warnings + ["Synchronization resumed"]
    ensures r.manager.state.errors == m.state.errors && r.manager.state.isOnline == m.state.isOnline
  {
    Outcome(AddWarning(m, "Synchronization resumed").(syncPaused := false), online)
  }

  /** The `online` event handler: sets the flag; schedules a sync unless paused. */
  function WentOnline(m: Manager): (r: Outcome<bool>)
    ensures r.manager.state.isOnline
    ensures r.value <==> !m.syncPaused
    ensures r.manager.syncPaused == m.syncPaused
    ensures r.manager.state.errors == m.state.errors && r.manager.state.warnings == m.state.warnings
    ensures r.manager.state.(isOnline := m.state.isOnline) == m.state
  {
    Outcome(m.(state := m.state.(isOnline := true)), !m.syncPaused)
  }

  /** The `offline` event handler: clears the flag. */
  function WentOffline(m: Manager): (r: Manager)
    ensures !r.state.isOnline
    ensures r.syncPaused == m.syncPaused
    ensures r.state.errors == m.state.errors && r.state.warnings == m.state.warnings
    ensures r.state.(isOnline := m.state.isOnline) == m.state
  {
    m.(state := m.state.(isOnline := false))
  }

  /**
   * `validateSession()`: records the answer as `sessionActive` and warns
   * when it is false; a failure appends an error and answers false.
   */
  function ValidateSession(m: Manager, check: Probe<bool>): (r: Outcome<bool>)
    ensures r.value <==> check.Answered? && check.value
    ensures check.Answered? ==>
              r.manager.state.securityStats == m.state.securityStats.(sessionActive := check.value) &&
              r.manager.state.errors == m.state.errors
    ensures check.Answered? && !check.value ==>
              r.manager.state.warnings == m.state.warnings + ["Session expired or invalid"]
    ensures check.Answered? && check.value ==> r.manager.state.warnings == m.state.warnings
    ensures check.Threw? ==>
              r.manager == AddError(m, "Session validation failed: " + ErrorText(check.error))
  {
    match check
    case Answered(valid) =>
      var recorded := m.(state := m.state.(securityStats := m.state.securityStats.(sessionActive := valid)));
      Outcome(if valid then recorded else AddWarning(recorded, "Session expired or invalid"), valid)
    case Threw(e) =>
      Outcome(AddError(m, "Session validation failed: " + ErrorText(e)), false)
  }

  /**
   * `rotateSecurityKeys()`: refreshes the stats and reports success. The
   * stats refresh never throws, so the failure branch of the source is
   * unreachable.
   */
  function RotateSecurityKeys(m: Manager, s: Store, sample: Probe<StatsSample>): (r: Manager)
    ensures r.state.warnings == m.state.warnings + ["Security keys rotated successfully"]
    ensures r.state.errors == m.state.errors
  {
    AddWarning(RefreshStats(m, s, sample), "Security keys rotated successfully")
  }

  /**
   * `enableBiometrics()`: sets `biometricEnabled` only when the security
   * manager reports success; otherwise the flag is kept and one warning or
   * one error is appended.
   */
  function EnableBiometrics(m: Manager, setup: Probe<bool>): (r: Outcome<bool>)
    ensures r.value <==> setup.Answered? && setup.value
    ensures r.value ==> r.manager.state.securityStats == m.state.securityStats.(biometricEnabled := true)
    ensures !r.value ==> r.manager.state.securityStats == m.state.securityStats
    ensures setup.Answered? ==>
              r.manager.state.errors == m.state.errors &&
              r.manager.state.warnings ==
                m.state.warnings + [if setup.value then "Biometric authentication enabled"
                                    else "Biometric authentication setup failed"]
    ensures setup.Threw? ==>
              r.manager == AddError(m, "Biometric setup failed: " + ErrorText(setup.error))
  {
    match setup
    case Answered(enabled) =>
      if enabled then
        var on := m.(state := m.state.(securityStats := m.state.securityStats.(biometricEnabled := true)));
        Outcome(AddWarning(on, "Biometric authentication enabled"), true)
      else Outcome(AddWarning(m, "Biometric authentication setup failed"), false)
    case Threw(e) =>
      Outcome(AddError(m, "Biometric setup failed: " + ErrorText(e)), false)
  }

  /**
   * `list.filter((_, i) => i !== index)`: keeps every entry whose position
   * differs from `index`. For an index inside the list that removes exactly
   * that entry and shifts the later ones down; any other index changes nothing.
   */
  function DropIndex<T>(xs: seq<T>, index: int): (r: seq<T>)
    ensures 0 <= index < |xs| ==> r == xs[..index] + xs[index + 1..]
    ensures !(0 <= index < |xs|) ==> r == xs
    decreases |xs|
  {
    if |xs| == 0 then []
    else (if index == 0 then [] else [xs[0]]) + DropIndex(xs[1..], index - 1)
  }

  /** `dismissError(index)`: removes that error; warnings are untouched. */
  function DismissError(m: Manager, index: int): (r: Manager)
    ensures 0 <= index < |m.state.errors| ==>
              |r.state.errors| == |m.state.errors| - 1 &&
              (forall i :: 0 <= i < index ==> r.state.errors[i] == m.state.errors[i]) &&
              (forall i :: index <= i < |r.state.errors| ==> r.state.errors[i] == m.state.errors[i + 1])
    ensures !(0 <= index < |m.state.errors|) ==> r == m
    ensures r.state.warnings == m.state.warnings && r.syncPaused == m.syncPaused
  {
    m.(state := m.state.(errors := DropIndex(m.state.errors, index)))
  }

  /** `dismissWarning(index)`: removes that warning; errors are untouched. */
  function DismissWarning(m: Manager, index: int): (r: Manager)
    ensures 0 <= index < |m.state.warnings| ==>
              |r.state.warnings| == |m.state.warnings| - 1 &&
              (forall i :: 0 <= i < index ==> r.state.warnings[i] == m.state.warnings[i]) &&
              (forall i :: index <= i < |r.state.warnings| ==> r.state.warnings[i] == m.state.warnings[i + 1])
    ensures !(0 <= index < |m.state.warnings|) ==> r == m
    ensures r.state.errors == m.state.errors && r.syncPaused == m.syncPaused
  {
    m.(state := m.state.(warnings := DropIndex(m.state.warnings, index)))
  }
}

=== FILE: offline_manager_properties.dfy ===
/**
 * Properties of the offline manager across actions: the error and warning
 * lists only grow until entries are dismissed, and the paused flag gates
 * every sync path.
 */
module OfflineManagerProperties {
  import opened Base
  import opened Storage
  import SyncManager
  import ApiErrors
  import Api = OfflineFirstApi
  import opened OfflineManager

  /** Every operator action and connectivity event, with its collaborators' answers. */
  datatype Event =
    | Init(storageInit: Probe<()>, security: Probe<SecurityStatus>, session: Probe<bool>)
    | Refresh(sample: Probe<StatsSample>)
    | Clear(reset: Probe<()>, clearSample: Probe<StatsSample>)
    | Validate(report: Probe<IntegrityReport>)
    | Sync(online: bool, drain: SyncManager.SyncOutcome, syncSample: Probe<StatsSample>)
    | Pause
    | Resume(resumeOnline: bool)
    | Online
    | Offline
    | Session(check: Probe<bool>)
    | Rotate(rotateSample: Probe<StatsSample>)
    | Biometrics(setup: Probe<bool>)
    | DismissErr(errorIndex: int)
    | DismissWarn(warningIndex: int)

  /** The manager and the store it works on. */
  datatype World = World(manager: Manager, store: Store)

  /** One reducer step. */
  function Apply(w: World, e: Event): (r: World)
    ensures !(e.Clear? && e.reset.Answered?) ==> r.store == w.store
  {
    var m, s := w.manager, w.store;
    match e
    case Init(i, sec, ses) => World(Initialize(m, i, sec, ses), s)
    case Refresh(x) => World(RefreshStats(m, s, x), s)
    case Clear(reset, x) => var c := ClearOfflineData(m, s, reset, x); World(c.manager, c.store)
    case Validate(report) => World(ValidateDataIntegrity(m, report).manager, s)
    case Sync(online, drain, x) => World(ForceSyncNow(m, s, online, drain, x).manager, s)
    case Pause => World(PauseSync(m), s)
    case Resume(online) => World(ResumeSync(m, online).manager, s)
    case Online => World(WentOnline(m).manager, s)
    case Offline => World(WentOffline(m), s)
    case Session(check) => World(ValidateSession(m, check).manager, s)
    case Rotate(x) => World(RotateSecurityKeys(m, s, x), s)
    case Biometrics(setup) => World(EnableBiometrics(m, setup).manager, s)
    case DismissErr(i) => World(DismissError(m, i), s)
    case DismissWarn(i) => World(DismissWarning(m, i), s)
  }

  /** Applies a sequence of events in order. */
  function Run(w: World, events: seq<Event>): World
    decreases |events|
  {
    if |events| == 0 then w else Run(Apply(w, events[0]), events[1..])
  }

  /** True iff the event is one of the two dismissals. */
  predicate IsDismissal(e: Event) {
    e.DismissErr? || e.DismissWarn?
  }

  /** `ys` extends `xs` by appending, without losing or reordering entries. */
  predicate Extends(xs: seq<string>, ys: seq<string>) {
    |xs| <= |ys| && ys[..|xs|] == xs
  }

  /** `after` keeps every entry of `before`'s lists and adds at most one to each. */
  predicate AppendsAtMostOne(before: State, after: State) {
    && Extends(before.errors, after.errors)
    && Extends(before.warnings, after.warnings)
    && |after.errors| <= |before.errors| + 1
    && |after.warnings| <= |before.warnings| + 1
  }

  /** A forced sync appends at most one warning or one error. */
  lemma SyncOnlyAppends(w: World, e: Event)
    requires e.Sync?
    ensures AppendsAtMostOne(w.manager.state, Apply(w, e).manager.state)
  {
    var m := w.manager;
    var r := ForceSyncNow(m, w.store, e.online, e.drain, e.syncSample);
    if !e.online || m.syncPaused {
    } else if e.drain.Completed? && e.drain.result.success {
      assert r.manager.state.errors == m.state.errors;
    } else {
      assert r.manager.state.warnings == m.state.warnings;
    }
  }

  /** Initialization and the integrity check append at most one entry. */
  lemma CheckOnlyAppends(w: World, e: Event)
    requires e.Init? || e.Validate?
    ensures AppendsAtMostOne(w.manager.state, Apply(w, e).manager.state)
  {
  }

  /** The session check appends at most one entry. */
  lemma SessionOnlyAppends(w: World, e: Event)
    requires e.Session?
    ensures AppendsAtMostOne(w.manager.state, Apply(w, e).manager.state)
  {
    var m := w.manager;
    var r := ValidateSession(m, e.check).manager.state;
    assert Apply(w, e).manager.state == r;
    if e.check.Answered? {
      assert r.errors == m.state.errors;
      assert r.warnings[..|m.state.warnings|] == m.state.warnings;
    } else {
      assert r.warnings == m.state.warnings;
      assert r.errors[..|m.state.errors|] == m.state.errors;
    }
  }

  /** Biometric setup appends at most one entry. */
  lemma BiometricsOnlyAppend(w: World, e: Event)
    requires e.Biometrics?
    ensures AppendsAtMostOne(w.manager.state, Apply(w, e).manager.state)
  {
  }

  /** Stats refreshes, clearing and key rotation append at most one entry. */
  lemma StorageOnlyAppends(w: World, e: Event)
    requires e.Refresh? || e.Clear? || e.Rotate?
    ensures AppendsAtMostOne(w.manager.state, Apply(w, e).manager.state)
  {
  }

  /** Pausing, resuming and connectivity changes append at most one warning. */
  lemma FlagsOnlyAppend(w: World, e: Event)
    requires e.Pause? || e.Resume? || e.Online? || e.Offline?
    ensures AppendsAtMostOne(w.manager.state, Apply(w, e).manager.state)
  {
  }

  /**
   * Every action other than a dismissal keeps all existing errors and
   * warnings in place and appends at most one entry to each list.
   */
  lemma StepOnlyAppends(w: World, e: Event)
    requires !IsDismissal(e)
    ensures var r := Apply(w, e).manager.state;
            && Extends(w.manager.state.errors, r.errors)
            && Extends(w.manager.state.warnings, r.warnings)
            && |r.errors| <= |w.manager.state.errors| + 1
            && |r.warnings| <= |w.manager.state.warnings| + 1
  {
    if e.Sync? {
      SyncOnlyAppends(w, e);
    } else if e.Init? || e.Validate? {
      CheckOnlyAppends(w, e);
    } else if e.Session? {
      SessionOnlyAppends(w, e);
    } else if e.Biometrics? {
      BiometricsOnlyAppend(w, e);
    } else if e.Refresh? || e.Clear? || e.Rotate? {
      StorageOnlyAppends(w, e);
    } else {
      FlagsOnlyAppend(w, e);
    }
  }

  /**
   * Over any run without dismissals, both lists keep every entry they had,
   * in order, and grow by at most one entry per event.
   */
  lemma {:induction false} RunOnlyAppends(w: World, events: seq<Event>)
    requires forall i :: 0 <= i < |events| ==> !IsDismissal(events[i])
    ensures var r := Run(w, events).manager.state;
            && Extends(w.manager.state.errors, r.errors)
            && Extends(w.manager.state.warnings, r.warnings)
            && |r.errors| <= |w.manager.state.errors| + |events|
            && |r.warnings| <= |w.manager.state.warnings| + |events|
    decreases |events|
  {
    if |events| > 0 {
      var next := Apply(w, events[0]);
      StepOnlyAppends(w, events[0]);
      RunOnlyAppends(next, events[1..]);
      var a, b, c := w.manager.state.errors, next.manager.state.errors, Run(w, events).manager.state.errors;
      assert c[..|b|][..|a|] == c[..|a|];
      var x, y, z := w.manager.state.warnings, next.manager.state.warnings, Run(w, events).manager.state.warnings;
      assert z[..|y|][..|x|] == z[..|x|];
    }
  }

  /**
   * The offline check comes first: offline, a forced sync warns about being
   * offline even when sync is also paused, and the sync manager is not called.
   */
  lemma OfflineCheckPrecedesPause(m: Manager, s: Store, drain: SyncManager.SyncOutcome, x: Probe<StatsSample>)
    requires m.syncPaused
    ensures var r := ForceSyncNow(m, s, false, drain, x);
            !r.value && r.manager.state.warnings == m.state.warnings + [OfflineSyncWarning]
  {
  }

  /**
   * Pausing gates every path to the sync manager: after `pauseSync`, going
   * online schedules nothing and a forced sync only warns. After
   * `resumeSync`, a forced sync while online reaches the sync manager.
   */
  lemma PauseGatesSync(m: Manager, s: Store, drain: SyncManager.SyncOutcome, x: Probe<StatsSample>)
    ensures var paused := PauseSync(m);
            && !WentOnline(paused).value
            && !ForceSyncNow(paused, s, true, drain, x).value
            && ForceSyncNow(paused, s, true, drain, x).manager.state.warnings
               == m.state.warnings + ["Synchronization paused", PausedSyncWarning]
    ensures var resumed := ResumeSync(PauseSync(m), true).manager;
            && WentOnline(resumed).value
            && ForceSyncNow(resumed, s, true, drain, x).value
  {
  }

  /** Dismissing the entry just appended restores the previous list. */
  lemma DismissUndoesAppend(m: Manager, message: string)
    ensures DismissError(AddError(m, message), |m.state.errors|).state.errors == m.state.errors
    ensures DismissWarning(AddWarning(m, message), |m.state.warnings|).state.warnings == m.state.warnings
  {
    var e := AddError(m, message).state.errors;
    assert e[..|m.state.errors|] == m.state.errors;
    var w := AddWarning(m, message).state.warnings;
    assert w[..|m.state.warnings|] == m.state.warnings;
  }

  /**
   * The hook's `forceSyncNow` against the client's, when both read the same
   * connectivity and the hook is not paused: the sync manager is reached by
   * one exactly when it is reached by the other; offline, the client's
   * rejection and the hook's warning carry the same text; a drain the client
   * rejects with is logged by the hook as one more error, and a resolved
   * drain adds an error exactly when it reports failure.
   */
  lemma HookAndClientSyncAgree(m: Manager, s: Store, online: bool, drain: SyncManager.SyncOutcome,
                               sample: Probe<StatsSample>)
    requires !m.syncPaused
    ensures var client := Api.ForceSyncNow(online, drain);
            var hook := ForceSyncNow(m, s, online, drain, sample);
            && (hook.value <==> client.delegated)
            && (!online ==> client.result == Err(ApiErrors.PlainError(OfflineSyncWarning)) &&
                            hook.manager.state.warnings == m.state.warnings + [OfflineSyncWarning])
            && (online && client.result.Err? ==> |hook.manager.state.errors| == |m.state.errors| + 1)
            && (online && client.result.Ok? ==>
                  (drain.result.success <==> hook.manager.state.errors == m.state.errors))
  {
  }
}

=== FILE: stable_callback.dfy ===
/**
 * The throttling and debouncing callback hooks. The clock and the timer queue
 * are explicit: a throttled call receives the current time, and a debounce
 * timer fires only when the caller says its delay has elapsed. The wrapped
 * function is represented by an opaque version `F` (the latest render's
 * function, which the hooks keep in a ref) and its arguments by `A`.
 */
module StableCallback {
  import opened Base

  // ---------------------------------------------------------------------
  // Throttle
  // ---------------------------------------------------------------------

  /** The ref holding the time of the last executed call. */
  datatype Throttle = Throttle(lastCall: int)

  /** The ref starts at zero. */
  const ThrottleStart := Throttle(0)

  /** One throttled call: the updated ref and what the wrapper returns (`None` for `undefined`). */
  datatype Gate<R> = Gate(next: Throttle, returned: Option<R>)

  /**
   * A call at time `now`; `result` is what the wrapped function would return.
   * The function runs iff at least `delay` has passed since the last run.
   */
  function ThrottledCall<R>(t: Throttle, delay: int, now: int, result: R): (r: Gate<R>)
    ensures r.returned.Some? <==> now - t.lastCall >= delay
    ensures r.returned.Some? ==> r.returned.value == result && r.next.lastCall == now
    ensures r.returned.None? ==> r.next == t
  {
    if now - t.lastCall >= delay then Gate(Throttle(now), Some(result)) else Gate(t, None)
  }

  /** The very first call runs as soon as the clock has passed `delay`. */
  lemma FirstCallRuns<R>(delay: int, now: int, result: R)
    requires now >= delay
    ensures ThrottledCall(ThrottleStart, delay, now, result).returned == Some(result)
  {
  }

  /** The times, among the call times `calls`, at which the wrapped function ran. */
  function RunTimes(t: Throttle, delay: int, calls: seq<int>): (r: seq<int>)
    ensures |r| <= |calls|
    ensures forall i :: 0 <= i < |r| ==> r[i] in calls
    ensures calls != [] && calls[0] - t.lastCall >= delay ==> |r| > 0 && r[0] == calls[0]
    ensures calls != [] && calls[0] - t.lastCall < delay ==> r == RunTimes(t, delay, calls[1..])
    decreases |calls|
  {
    if calls == [] then []
    else
      var g := ThrottledCall(t, delay, calls[0], ());
      var rest := RunTimes(g.next, delay, calls[1..]);
      assert forall i :: 0 <= i < |rest| ==> rest[i] in calls by {
        forall i | 0 <= i < |rest| ensures rest[i] in calls {
          assert rest[i] in calls[1..];
        }
      }
      if g.returned.Some? then [calls[0]] + rest else rest
  }

  /** Each run is at least `delay` after the previous one, the first after `last`. */
  predicate SpacedFrom(runs: seq<int>, delay: int, last: int) {
    (|runs| > 0 ==> runs[0] - last >= delay) &&
    forall i :: 0 <= i < |runs| - 1 ==> runs[i + 1] - runs[i] >= delay
  }

  /** Consecutive executions of a throttled function are at least `delay` apart. */
  lemma {:induction false} RunsAreSpaced(t: Throttle, delay: int, calls: seq<int>)
    ensures SpacedFrom(RunTimes(t, delay, calls), delay, t.lastCall)
    decreases |calls|
  {
    if calls != [] {
      var g := ThrottledCall(t, delay, calls[0], ());
      RunsAreSpaced(g.next, delay, calls[1..]);
    }
  }

  /** With a non-negative delay, spacing between neighbours gives spacing between any two runs. */
  lemma {:induction false} SpacedPairwise(runs: seq<int>, delay: int, last: int, i: nat, j: nat)
    requires SpacedFrom(runs, delay, last) && delay >= 0
    requires i < j < |runs|
    ensures runs[j] - runs[i] >= delay
    decreases j - i
  {
    if j > i + 1 {
      SpacedPairwise(runs, delay, last, i, j - 1);
      assert runs[j] - runs[j - 1] >= delay;
    }
  }

  /** Any two executed throttled calls are at least `delay` apart in time. */
  lemma ThrottledRunsApart(t: Throttle, delay: int, calls: seq<int>, i: nat, j: nat)
    requires delay >= 0
    requires i < j < |RunTimes(t, delay, calls)|
    ensures RunTimes(t, delay, calls)[j] - RunTimes(t, delay, calls)[i] >= delay
  {
    RunsAreSpaced(t, delay, calls);
    SpacedPairwise(RunTimes(t, delay, calls), delay, t.lastCall, i, j);
  }

  // ---------------------------------------------------------------------
  // Debounce
  // ---------------------------------------------------------------------

  /** A scheduled `setTimeout`, holding the arguments of the call that scheduled it. */
  datatype Timer<A> = Timer(id: nat, args: A)

  /** One run of the wrapped function: the function version current at fire time, and the arguments. */
  datatype Invocation<F, A> = Invocation(fn: F, args: A)

  /**
   * The debounced wrapper's world: the function ref, the pending timers, the
   * timeout ref (the last scheduled timer's id), the next timer id and the
   * runs so far.
   */
  datatype Debounce<F, A> = Debounce(
    current: F,
    pending: seq<Timer<A>>,
    timeoutRef: Option<nat>,
    nextId: nat,
    invoked: seq<Invocation<F, A>>)

  /** The first render: the function ref holds `fn`, and no timer is pending or referenced. */
  function DebounceStart<F, A>(fn: F): (r: Debounce<F, A>)
    ensures r.pending == [] && r.invoked == [] && r.current == fn && r.timeoutRef.None?
  {
    Debounce(fn, [], None, 1, [])
  }

  /** `clearTimeout(id)`: the timer with that id, if still pending, is dropped. */
  function ClearTimeout<A>(pending: seq<Timer<A>>, id: nat): (r: seq<Timer<A>>)
    ensures |r| <= |pending|
    ensures forall i :: 0 <= i < |r| ==> r[i] in pending && r[i].id != id
    ensures forall i :: 0 <= i < |pending| && pending[i].id != id ==> pending[i] in r
  {
    if pending == [] then []
    else (if pending[0].id == id then [] else [pending[0]]) + ClearTimeout(pending[1..], id)
  }

  /** A call: the previous timer is cleared, a new one is scheduled with these arguments. */
  function DebouncedCall<F, A>(d: Debounce<F, A>, args: A): (r: Debounce<F, A>)
    ensures r.timeoutRef == Some(d.nextId)
    ensures |r.pending| > 0 && r.pending[|r.pending| - 1] == Timer(d.nextId, args)
    ensures d.timeoutRef.Some? ==> forall i :: 0 <= i < |r.pending| - 1 ==> r.pending[i].id != d.timeoutRef.value
    ensures r.invoked == d.invoked && r.current == d.current
  {
    var kept := if d.timeoutRef.Some? then ClearTimeout(d.pending, d.timeoutRef.value) else d.pending;
    assert (kept + [Timer(d.nextId, args)])[..|kept|] == kept;
    d.(pending := kept + [Timer(d.nextId, args)], timeoutRef := Some(d.nextId), nextId := d.nextId + 1)
  }

  /** A re-render: the ref now holds the new function; timers already scheduled will call it. */
  function Rerender<F, A>(d: Debounce<F, A>, fn: F): (r: Debounce<F, A>)
    ensures r.current == fn && r.pending == d.pending && r.invoked == d.invoked
  {
    d.(current := fn)
  }

  /** The earliest pending timer's delay elapses: the current function runs with that timer's arguments. */
  function Elapse<F, A>(d: Debounce<F, A>): (r: Debounce<F, A>)
    ensures d.pending == [] ==> r == d
    ensures d.pending != [] ==>
              r.pending == d.pending[1..] && r.invoked == d.invoked + [Invocation(d.current, d.pending[0].args)]
  {
    if d.pending == [] then d
    else d.(pending := d.pending[1..], invoked := d.invoked + [Invocation(d.current, d.pending[0].args)])
  }

  /** At most one timer is pending, and it is the one the timeout ref names. */
  predicate AtMostOnePending<F, A>(d: Debounce<F, A>) {
    |d.pending| <= 1 && (|d.pending| == 1 ==> d.timeoutRef == Some(d.pending[0].id))
  }

  datatype DebounceEvent<F, A> = CallWith(args: A) | Render(fn: F) | TimerFires

  function Step<F, A>(d: Debounce<F, A>, e: DebounceEvent<F, A>): Debounce<F, A> {
    match e
    case CallWith(args) => DebouncedCall(d, args)
    case Render(fn) => Rerender(d, fn)
    case TimerFires => Elapse(d)
  }

  function Run<F, A>(d: Debounce<F, A>, events: seq<DebounceEvent<F, A>>): Debounce<F, A>
    decreases |events|
  {
    if events == [] then d else Run(Step(d, events[0]), events[1..])
  }

  function CallCount<F, A>(events: seq<DebounceEvent<F, A>>): nat {
    if events == [] then 0 else (if events[0].CallWith? then 1 else 0) + CallCount(events[1..])
  }

  /** One event keeps at most one timer pending. */
  lemma StepKeepsOnePending<F, A>(d: Debounce<F, A>, e: DebounceEvent<F, A>)
    requires AtMostOnePending(d)
    ensures AtMostOnePending(Step(d, e))
  {
    if e.CallWith? {
      var kept := if d.timeoutRef.Some? then ClearTimeout(d.pending, d.timeoutRef.value) else d.pending;
      assert kept == [];
    }
  }

  /** From the start, and over any sequence of calls, renders and timer expiries, at most one invocation is pending. */
  lemma {:induction false} RunKeepsOnePending<F, A>(d: Debounce<F, A>, events: seq<DebounceEvent<F, A>>)
    requires AtMostOnePending(d)
    ensures AtMostOnePending(Run(d, events))
    decreases |events|
  {
    if events != [] {
      StepKeepsOnePending(d, events[0]);
      RunKeepsOnePending(Step(d, events[0]), events[1..]);
    }
  }

  /** The wrapped function runs at most once per call. */
  lemma {:induction false} RunsAtMostOncePerCall<F, A>(d: Debounce<F, A>, events: seq<DebounceEvent<F, A>>)
    ensures |Run(d, events).invoked| + |Run(d, events).pending| <= |d.invoked| + |d.pending| + CallCount(events)
    decreases |events|
  {
    if events != [] {
      RunsAtMostOncePerCall(Step(d, events[0]), events[1..]);
    }
  }

  /**
   * The last call wins: after a call, renders, and the timer firing, exactly
   * one run happens, with the last call's arguments and the latest function.
   */
  lemma LastCallWins<F, A>(d: Debounce<F, A>, args: A, fn: F)
    requires AtMostOnePending(d)
    ensures Elapse(Rerender(DebouncedCall(d, args), fn)).invoked == d.invoked + [Invocation(fn, args)]
    ensures Elapse(Rerender(DebouncedCall(d, args), fn)).pending == []
  {
    StepKeepsOnePending(d, CallWith(args));
  }
}

=== FILE: storage.dfy ===
/**
 * The local store and action queue the API client and the offline manager
 * call into (`offlineStorage` and `offlineSyncManager`). Their
 * implementations are not part of this model: only the calls the client and
 * the manager make are given meaning here, over an explicit store value.
 */
module Storage {
  import opened Base
  import opened Table

  /** One bank account snapshot as delivered by the server. */
  datatype Account = Account(id: string, name: string, accountNumber: string, balance: int)

  /** One ledger entry as delivered by the server. */
  datatype Transaction = Transaction(
    id: string, accountId: string, amount: int, balanceAfter: int,
    description: string, transactionType: string)

  /** Transactions are stored under the pair (owning account, identifier). */
  datatype TxKey = TxKey(accountId: string, id: string)

  /** The two kinds of deferred write operation. */
  datatype ActionKind = TransferAction | BillPaymentAction

  /** The serialized request body of a write; opaque to the store. */
  type Payload = string

  /** A pending write, with the identifier handed back to the caller. */
  datatype QueuedAction = QueuedAction(id: nat, kind: ActionKind, payload: Payload)

  /** The storage counters `getStorageStats` reports. */
  datatype StorageStats = StorageStats(accounts: nat, transactions: nat, queuedActions: nat, totalSize: nat)

  /**
   * The persistent state: account and transaction tables, the action queue,
   * the next action identifier, and the last-sync timestamp per scope.
   */
  datatype Store = Store(
    accounts: seq<Row<string, Account>>,
    transactions: seq<Row<TxKey, Transaction>>,
    queue: seq<QueuedAction>,
    nextActionId: nat,
    syncMetadata: map<string, int>)

  /** Every queued identifier was issued before the next one. */
  predicate QueueIdsIssued(s: Store) {
    forall i :: 0 <= i < |s.queue| ==> s.queue[i].id < s.nextActionId
  }

  /** The rows a batch of accounts is stored under, one per account, keyed by id. */
  function AccountRows(accounts: seq<Account>): (rows: seq<Row<string, Account>>)
    ensures |rows| == |accounts|
    ensures forall i :: 0 <= i < |accounts| ==> rows[i] == Row(accounts[i].id, accounts[i])
  {
    seq(|accounts|, i requires 0 <= i < |accounts| => Row(accounts[i].id, accounts[i]))
  }

  /** No two accounts of a batch share an identifier. */
  predicate DistinctIds(accounts: seq<Account>) {
    forall i, j :: 0 <= i < j < |accounts| ==> accounts[i].id != accounts[j].id
  }

  /** The identifiers of a batch of accounts. */
  function AccountIds(accounts: seq<Account>): set<string> {
    Keys(AccountRows(accounts))
  }

  /** The identifiers occurring in a batch after position `i`. */
  function LaterIds(accounts: seq<Account>, i: nat): set<string>
    requires i < |accounts|
  {
    LaterKeys(AccountRows(accounts), i)
  }

  /** `getAllAccounts`: every cached account in store order, empty when none. */
  function AllAccounts(s: Store): (r: seq<Account>)
    ensures |r| == |s.accounts|
  {
    Values(s.accounts)
  }

  /** `getAccount(id)`: the cached account, or `None` on a miss. */
  function GetAccount(s: Store, id: string): Option<Account> {
    Lookup(s.accounts, id)
  }

  /** `storeAccount(a)`: upsert by identifier; only that account changes. */
  function StoreAccount(s: Store, a: Account): (r: Store)
    ensures GetAccount(r, a.id) == Some(a)
    ensures forall id :: id != a.id ==> GetAccount(r, id) == GetAccount(s, id)
    ensures r.transactions == s.transactions && r.queue == s.queue
    ensures r.nextActionId == s.nextActionId && r.syncMetadata == s.syncMetadata
  {
    s.(accounts := Upsert(s.accounts, a.id, a))
  }

  /**
   * Stores every account of a batch in order. An account whose identifier
   * does not recur later in the batch is found afterwards; identifiers not in
   * the batch keep their previous record.
   */
  function StoreAccounts(s: Store, accounts: seq<Account>): (r: Store)
    ensures forall id :: id !in AccountIds(accounts) ==> GetAccount(r, id) == GetAccount(s, id)
    ensures forall i {:trigger LaterIds(accounts, i)} :: 0 <= i < |accounts| && accounts[i].id !in LaterIds(accounts, i) ==>
              GetAccount(r, accounts[i].id) == Some(accounts[i])
    ensures r.transactions == s.transactions && r.queue == s.queue
    ensures r.nextActionId == s.nextActionId && r.syncMetadata == s.syncMetadata
  {
    s.(accounts := UpsertAll(s.accounts, AccountRows(accounts)))
  }

  /** The rows a batch of transactions is stored under. */
  function TransactionRows(txs: seq<Transaction>): (rows: seq<Row<TxKey, Transaction>>)
    ensures |rows| == |txs|
    ensures forall i :: 0 <= i < |txs| ==> rows[i] == Row(TxKey(txs[i].accountId, txs[i].id), txs[i])
  {
    seq(|txs|, i requires 0 <= i < |txs| => Row(TxKey(txs[i].accountId, txs[i].id), txs[i]))
  }

  /** `storeTransaction(tx)`: upsert by (account, identifier). */
  function StoreTransaction(s: Store, tx: Transaction): (r: Store)
    ensures Lookup(r.transactions, TxKey(tx.accountId, tx.id)) == Some(tx)
    ensures forall k :: k != TxKey(tx.accountId, tx.id) ==> Lookup(r.transactions, k) == Lookup(s.transactions, k)
    ensures r.accounts == s.accounts && r.queue == s.queue
  {
    s.(transactions := Upsert(s.transactions, TxKey(tx.accountId, tx.id), tx))
  }

  /** The (account, identifier) keys occurring in a batch after position `i`. */
  function LaterTxKeys(txs: seq<Transaction>, i: nat): set<TxKey>
    requires i < |txs|
  {
    LaterKeys(TransactionRows(txs), i)
  }

  /**
   * Stores every transaction of a batch in order. A transaction whose key
   * does not recur later in the batch is found afterwards under that key,
   * so the last record for a key wins; keys not in the batch keep their
   * previous record.
   */
  function StoreTransactions(s: Store, txs: seq<Transaction>): (r: Store)
    ensures forall k :: k !in Keys(TransactionRows(txs)) ==> Lookup(r.transactions, k) == Lookup(s.transactions, k)
    ensures forall i {:trigger LaterTxKeys(txs, i)} :: 0 <= i < |txs| && TxKey(txs[i].accountId, txs[i].id) !in LaterTxKeys(txs, i) ==>
              Lookup(r.transactions, TxKey(txs[i].accountId, txs[i].id)) == Some(txs[i])
    ensures Keys(r.transactions) == Keys(s.transactions) + Keys(TransactionRows(txs))
    ensures r.accounts == s.accounts && r.queue == s.queue
    ensures r.nextActionId == s.nextActionId && r.syncMetadata == s.syncMetadata
  {
    s.(transactions := UpsertAll(s.transactions, TransactionRows(txs)))
  }

  /** The transactions of one account, in store order. */
  function OfAccount(txs: seq<Transaction>, accountId: string): (r: seq<Transaction>)
    ensures forall i :: 0 <= i < |r| ==> r[i].accountId == accountId && r[i] in txs
    ensures forall i :: 0 <= i < |txs| && txs[i].accountId == accountId ==> txs[i] in r
  {
    if |txs| == 0 then []
    else (if txs[0].accountId == accountId then [txs[0]] else []) + OfAccount(txs[1..], accountId)
  }

  /**
   * `getTransactionsByAccount(accountId, limit)`: the cached transactions of
   * that account, at most `limit` of them.
   */
  function TransactionsByAccount(s: Store, accountId: string, limit: nat): (r: seq<Transaction>)
    ensures |r| <= limit
    ensures forall i :: 0 <= i < |r| ==> r[i].accountId == accountId
    ensures r <= OfAccount(Values(s.transactions), accountId)
    ensures |r| == if |OfAccount(Values(s.transactions), accountId)| <= limit
                   then |OfAccount(Values(s.transactions), accountId)| else limit
  {
    var all := OfAccount(Values(s.transactions), accountId);
    if |all| <= limit then all else all[..limit]
  }

  /** A queued action and the store that now holds it. */
  datatype Enqueued = Enqueued(store: Store, id: nat)

  /**
   * `queueTransfer` / `queueBillPayment`: persists the action at the end of
   * the queue under a fresh identifier and returns that identifier.
   */
  function Enqueue(s: Store, kind: ActionKind, payload: Payload): (r: Enqueued)
    ensures r.store.queue == s.queue + [QueuedAction(r.id, kind, payload)]
    ensures QueueIdsIssued(s) ==> QueueIdsIssued(r.store)
    ensures QueueIdsIssued(s) ==> forall i :: 0 <= i < |s.queue| ==> s.queue[i].id != r.id
    ensures r.store.accounts == s.accounts && r.store.transactions == s.transactions
    ensures r.store.syncMetadata == s.syncMetadata
  {
    var id := s.nextActionId;
    Enqueued(s.(queue := s.queue + [QueuedAction(id, kind, payload)], nextActionId := id + 1), id)
  }

  /** The number of queued actions of one kind. */
  function PendingCount(q: seq<QueuedAction>, kind: ActionKind): (n: nat)
    ensures n <= |q|
    ensures n == 0 <==> forall i :: 0 <= i < |q| ==> q[i].kind != kind
  {
    if |q| == 0 then 0
    else (if q[0].kind == kind then 1 else 0) + PendingCount(q[1..], kind)
  }

  /** `getPendingTransfersCount()`. */
  function PendingTransfers(s: Store): nat {
    PendingCount(s.queue, TransferAction)
  }

  /** `getPendingBillPaymentsCount()`. */
  function PendingBillPayments(s: Store): nat {
    PendingCount(s.queue, BillPaymentAction)
  }

  /**
   * `getStorageStats()`: the record counts of the store. The size estimate
   * is computed by the storage engine and is passed in.
   */
  function Stats(s: Store, totalSize: nat): (r: StorageStats)
    ensures r.accounts == |AllAccounts(s)| && r.queuedActions == |s.queue|
  {
    StorageStats(|s.accounts|, |s.transactions|, |s.queue|, totalSize)
  }

  /** `getSyncMetadata(scope)?.lastSyncTimestamp`. */
  function LastSyncTimestamp(s: Store, scope: string): Option<int> {
    if scope in s.syncMetadata then Some(s.syncMetadata[scope]) else None
  }

  /**
   * `reset()`: clears accounts, transactions, queued actions and sync
   * metadata. What the store does with its identifier counter is not visible
   * to its callers; this model chooses to keep it.
   */
  function Reset(s: Store): (r: Store)
    ensures AllAccounts(r) == [] && r.transactions == [] && r.queue == [] && r.syncMetadata == map[]
    ensures forall id :: GetAccount(r, id).None?
    ensures QueueIdsIssued(r) && r.nextActionId == s.nextActionId
  {
    Store([], [], [], s.nextActionId, map[])
  }

  /** Enqueuing counts towards exactly its own kind. */
  lemma {:induction false} PendingCountAppend(q: seq<QueuedAction>, a: QueuedAction, kind: ActionKind)
    ensures PendingCount(q + [a], kind) == PendingCount(q, kind) + (if a.kind == kind then 1 else 0)
  {
    if |q| > 0 {
      assert (q + [a])[1..] == q[1..] + [a];
      PendingCountAppend(q[1..], a, kind);
    } else {
      assert (q + [a])[1..] == [];
    }
  }

  /** After `reset`, every listing and every counter of the store is empty. */
  lemma ResetEmptiesStats(s: Store)
    ensures AllAccounts(Reset(s)) == []
    ensures PendingTransfers(Reset(s)) == 0 && PendingBillPayments(Reset(s)) == 0
    ensures Stats(Reset(s), 0) == StorageStats(0, 0, 0, 0)
  {
  }

  /** Storing an account twice leaves the same store as storing it once. */
  lemma StoreAccountIdempotent(s: Store, a: Account)
    ensures StoreAccount(StoreAccount(s, a), a) == StoreAccount(s, a)
  {
    UpsertIdempotent(s.accounts, a.id, a);
  }

  /**
   * After a batch of accounts is stored, every identifier looks up either
   * its previous record or an account that the batch delivered.
   */
  lemma StoreAccountsProvenance(s: Store, accounts: seq<Account>, id: string)
    ensures var r := GetAccount(StoreAccounts(s, accounts), id);
            r == GetAccount(s, id) || (r.Some? && r.value in accounts)
  {
    var rows := AccountRows(accounts);
    UpsertAllProvenance(s.accounts, rows, id);
    var r := GetAccount(StoreAccounts(s, accounts), id);
    if r != GetAccount(s, id) {
      var i :| 0 <= i < |rows| && rows[i] == Row(id, r.value);
      assert r.value == accounts[i];
    }
  }

  /**
   * A store without accounts, after a batch with distinct identifiers is
   * stored, lists exactly that batch in its order.
   */
  lemma StoreAccountsIntoEmpty(s: Store, accounts: seq<Account>)
    requires s.accounts == [] && DistinctIds(accounts)
    ensures AllAccounts(StoreAccounts(s, accounts)) == accounts
  {
    var rows := AccountRows(accounts);
    assert [] + rows == rows;
    assert UniqueKeys([] + rows);
    UpsertAllFreshAppends([], rows);
    assert Values(rows) == accounts;
  }

  /** Storing a batch again, right after storing it, changes nothing. */
  lemma StoreAccountsAgain(s: Store, accounts: seq<Account>)
    requires DistinctIds(accounts)
    ensures StoreAccounts(StoreAccounts(s, accounts), accounts) == StoreAccounts(s, accounts)
  {
    var rows := AccountRows(accounts);
    var t := UpsertAll(s.accounts, rows);
    forall i | 0 <= i < |rows| ensures Lookup(t, rows[i].key) == Some(rows[i].value) {
      assert accounts[i].id !in LaterIds(accounts, i) by {
        var later := rows[i + 1..];
        forall j | 0 <= j < |later| ensures later[j].key != accounts[i].id {
          assert later[j] == rows[i + 1 + j];
        }
        KeysMembership(later, accounts[i].id);
      }
    }
    UpsertAllPresent(t, rows);
  }

  /** No two transactions of a batch share an (account, identifier) key. */
  predicate DistinctTxKeys(txs: seq<Transaction>) {
    forall i, j :: 0 <= i < j < |txs| ==> TxKey(txs[i].accountId, txs[i].id) != TxKey(txs[j].accountId, txs[j].id)
  }

  /** A list of one account's transactions is its own selection for that account. */
  lemma {:induction false} OfAccountOfOwn(txs: seq<Transaction>, accountId: string)
    requires forall i :: 0 <= i < |txs| ==> txs[i].accountId == accountId
    ensures OfAccount(txs, accountId) == txs
  {
    if |txs| > 0 {
      OfAccountOfOwn(txs[1..], accountId);
      assert [txs[0]] + txs[1..] == txs;
    }
  }

  /** A batch with distinct keys stored into an empty table is read back as given. */
  lemma StoreTransactionsIntoEmpty(s: Store, txs: seq<Transaction>)
    requires s.transactions == [] && DistinctTxKeys(txs)
    ensures Values(StoreTransactions(s, txs).transactions) == txs
  {
    var rows := TransactionRows(txs);
    assert [] + rows == rows;
    assert UniqueKeys([] + rows);
    UpsertAllFreshAppends([], rows);
    assert Values(rows) == txs;
  }

  /** Storing a batch of transactions again, right after storing it, changes nothing. */
  lemma StoreTransactionsAgain(s: Store, txs: seq<Transaction>)
    requires DistinctTxKeys(txs)
    ensures StoreTransactions(StoreTransactions(s, txs), txs) == StoreTransactions(s, txs)
  {
    var rows := TransactionRows(txs);
    var t := UpsertAll(s.transactions, rows);
    forall i | 0 <= i < |rows| ensures Lookup(t, rows[i].key) == Some(rows[i].value) {
      assert rows[i].key !in LaterTxKeys(txs, i) by {
        var later := rows[i + 1..];
        forall j | 0 <= j < |later| ensures later[j].key != rows[i].key {
          assert later[j] == rows[i + 1 + j];
        }
        KeysMembership(later, rows[i].key);
      }
    }
    UpsertAllPresent(t, rows);
  }
}

=== FILE: sync_manager.dfy ===
/**
 * The results the sync manager (`offlineSyncManager`) hands back to its
 * callers. Its queue drain is not part of this model; callers receive its
 * outcome as a parameter.
 */
module SyncManager {
  import ApiErrors

  /** What `forceSyncNow()` resolves to. */
  datatype SyncResult = SyncResult(success: bool, syncedItems: nat, errors: seq<string>)

  /** A drain either resolves with a result or rejects with a thrown value. */
  datatype SyncOutcome = Completed(result: SyncResult) | Rejected(error: ApiErrors.Thrown)
}

=== FILE: tab_bar.dfy ===
/** The bottom tab bar: the tab table, the active-tab rule and the label styling. */
module TabBar {
  import opened Base

  /** One entry of `TABS`. */
  datatype Tab = Tab(path: string, title: string, isMain: bool)

  /** `TABS`, in display order; the wallet is the main tab. */
  const Tabs: seq<Tab> := [
    Tab("/shop", "상품", false),
    Tab("/assets", "자산", false),
    Tab("/wallet", "지갑", true),
    Tab("/benefits", "혜택", false),
    Tab("/menu", "메뉴", false)
  ]

  /** The wallet tab also stands for the dashboard and the root path. */
  predicate IsActive(tab: Tab, pathname: string) {
    pathname == tab.path || (tab.path == "/wallet" && (pathname == "/dashboard" || pathname == "/"))
  }

  /** The paths on which some tab is active. */
  const TabbedPaths: set<string> := {"/shop", "/assets", "/wallet", "/benefits", "/menu", "/dashboard", "/"}

  /** The position of the active tab, if any. */
  function ActiveTab(pathname: string): (r: Option<nat>)
    ensures r.Some? ==> r.value < |Tabs| && IsActive(Tabs[r.value], pathname)
    ensures r.None? ==> forall i :: 0 <= i < |Tabs| ==> !IsActive(Tabs[i], pathname)
    ensures r.Some? <==> pathname in TabbedPaths
  {
    if IsActive(Tabs[0], pathname) then Some(0)
    else if IsActive(Tabs[1], pathname) then Some(1)
    else if IsActive(Tabs[2], pathname) then Some(2)
    else if IsActive(Tabs[3], pathname) then Some(3)
    else if IsActive(Tabs[4], pathname) then Some(4)
    else None
  }

  /** For any pathname, at most one tab is active. */
  lemma AtMostOneActive(pathname: string, i: nat, j: nat)
    requires i < |Tabs| && j < |Tabs|
    requires IsActive(Tabs[i], pathname) && IsActive(Tabs[j], pathname)
    ensures i == j
  {
  }

  /** How one tab is drawn. */
  datatype TabLook = TabLook(showIndicator: bool, labelColor: string, fontWeight: nat)

  /**
   * The indicator, label colour and weight of a tab. The label is told the
   * tab is main only when it is also active.
   */
  function Look(tab: Tab, pathname: string): (r: TabLook)
    ensures r.showIndicator <==> IsActive(tab, pathname) && !tab.isMain
    ensures r.labelColor == "#FF9500" <==> IsActive(tab, pathname) && tab.isMain
    ensures r.labelColor == "#000000" <==> IsActive(tab, pathname) && !tab.isMain
    ensures r.labelColor == "#666666" <==> !IsActive(tab, pathname)
    ensures r.fontWeight == 700 <==> IsActive(tab, pathname)
  {
    var active := IsActive(tab, pathname);
    var mainLabel := tab.isMain && active;
    TabLook(
      active && !tab.isMain,
      if active && mainLabel then "#FF9500" else if active then "#000000" else "#666666",
      if active then 700 else 600)
  }

  /**
   * Over the whole bar, at most one label is highlighted and at most one
   * indicator is shown; on the dashboard the wallet label is orange and no
   * indicator is shown.
   */
  lemma AtMostOneHighlighted(pathname: string, i: nat, j: nat)
    requires i < |Tabs| && j < |Tabs|
    requires Look(Tabs[i], pathname).labelColor != "#666666"
    requires Look(Tabs[j], pathname).labelColor != "#666666"
    ensures i == j
  {
    AtMostOneActive(pathname, i, j);
  }

  /**
   * The styling of the whole bar follows the active tab: a tab is bold iff
   * it is the active one, its label is orange iff it is the active wallet
   * tab, and its indicator shows iff it is the active tab and not the wallet.
   */
  lemma LookFollowsActiveTab(pathname: string, i: nat)
    requires i < |Tabs|
    ensures Look(Tabs[i], pathname).fontWeight == 700 <==> ActiveTab(pathname) == Some(i)
    ensures Look(Tabs[i], pathname).labelColor == "#FF9500" <==>
              ActiveTab(pathname) == Some(i) && Tabs[i].path == "/wallet"
    ensures Look(Tabs[i], pathname).showIndicator <==>
              ActiveTab(pathname) == Some(i) && Tabs[i].path != "/wallet"
  {
  }

  /** On the dashboard the wallet tab is drawn as the active main tab. */
  lemma DashboardHighlightsWallet()
    ensures Look(Tabs[2], "/dashboard") == TabLook(false, "#FF9500", 700)
    ensures forall i :: 0 <= i < |Tabs| ==> !Look(Tabs[i], "/dashboard").showIndicator
  {
  }
}

=== FILE: table.dfy ===
/**
 * A keyed table kept as an ordered sequence of rows. The local store keeps
 * accounts and transactions this way: upsert by key, lookup by key, and the
 * rows in insertion order when every record is listed.
 */
module Table {
  import opened Base

  datatype Row<K, V> = Row(key: K, value: V)

  /** The set of keys present in a sequence of rows. */
  function Keys<K, V>(t: seq<Row<K, V>>): set<K> {
    if |t| == 0 then {} else {t[0].key} + Keys(t[1..])
  }

  /** The value stored under `k`, taken from the first row with that key. */
  function Lookup<K(==), V>(t: seq<Row<K, V>>, k: K): (r: Option<V>)
    ensures r.None? <==> k !in Keys(t)
    ensures r.Some? ==> Row(k, r.value) in t
  {
    if |t| == 0 then None
    else if t[0].key == k then Some(t[0].value)
    else Lookup(t[1..], k)
  }

  /** The values in row order. */
  function Values<K, V>(t: seq<Row<K, V>>): (r: seq<V>)
    ensures |r| == |t|
    ensures forall i :: 0 <= i < |t| ==> r[i] == t[i].value
  {
    if |t| == 0 then [] else [t[0].value] + Values(t[1..])
  }

  /** No key occurs in two rows. */
  predicate UniqueKeys<K(==), V>(t: seq<Row<K, V>>) {
    forall i, j :: 0 <= i < j < |t| ==> t[i].key != t[j].key
  }

  /**
   * Insert-or-overwrite: the row for `k` is replaced in place, or appended
   * when `k` is absent. No other key is affected.
   */
  function Upsert<K(==, !new), V>(t: seq<Row<K, V>>, k: K, v: V): (r: seq<Row<K, V>>)
    ensures Lookup(r, k) == Some(v)
    ensures forall k' :: k' != k ==> Lookup(r, k') == Lookup(t, k')
    ensures Keys(r) == Keys(t) + {k}
    ensures |r| == if k in Keys(t) then |t| else |t| + 1
  {
    if |t| == 0 then [Row(k, v)]
    else if t[0].key == k then [Row(k, v)] + t[1..]
    else [t[0]] + Upsert(t[1..], k, v)
  }

  /** The keys occurring in a batch after position `i`. */
  function LaterKeys<K, V>(rows: seq<Row<K, V>>, i: nat): set<K>
    requires i < |rows|
  {
    Keys(rows[i + 1..])
  }

  /**
   * Upserts a batch of rows one after another, as the source's
   * `for (const x of data) await store(x)` loops do: the last row for a key wins.
   */
  function UpsertAll<K(==, !new), V>(t: seq<Row<K, V>>, rows: seq<Row<K, V>>): (r: seq<Row<K, V>>)
    ensures forall k :: k !in Keys(rows) ==> Lookup(r, k) == Lookup(t, k)
    ensures forall i {:trigger LaterKeys(rows, i)} :: 0 <= i < |rows| && rows[i].key !in LaterKeys(rows, i) ==>
              Lookup(r, rows[i].key) == Some(rows[i].value)
    ensures Keys(r) == Keys(t) + Keys(rows)
    decreases |rows|
  {
    if |rows| == 0 then t
    else
      LaterKeysShift(rows);
      UpsertAll(Upsert(t, rows[0].key, rows[0].value), rows[1..])
  }

  /** The keys after position `i` of a batch are the keys after `i - 1` of its tail. */
  lemma LaterKeysShift<K, V>(rows: seq<Row<K, V>>)
    requires |rows| > 0
    ensures LaterKeys(rows, 0) == Keys(rows[1..])
    ensures forall i {:trigger LaterKeys(rows, i)} :: 0 < i < |rows| ==> LaterKeys(rows, i) == LaterKeys(rows[1..], i - 1)
  {
    forall i | 0 < i < |rows| ensures LaterKeys(rows, i) == LaterKeys(rows[1..], i - 1) {
      assert rows[1..][i..] == rows[i + 1..];
    }
  }

  /** A key is present exactly when some row carries it. */
  lemma {:induction false} KeysMembership<K, V>(t: seq<Row<K, V>>, k: K)
    ensures k in Keys(t) <==> exists i :: 0 <= i < |t| && t[i].key == k
  {
    if |t| > 0 {
      KeysMembership(t[1..], k);
      if k in Keys(t[1..]) {
        var i :| 0 <= i < |t[1..]| && t[1..][i].key == k;
        assert t[i + 1].key == k;
      }
      if exists i :: 0 <= i < |t| && t[i].key == k {
        var i :| 0 <= i < |t| && t[i].key == k;
        if i > 0 { assert t[1..][i - 1].key == k; }
      }
    }
  }

  /** The keys of two concatenated row sequences. */
  lemma {:induction false} KeysAppend<K, V>(a: seq<Row<K, V>>, b: seq<Row<K, V>>)
    ensures Keys(a + b) == Keys(a) + Keys(b)
  {
    if |a| > 0 {
      assert (a + b)[1..] == a[1..] + b;
      KeysAppend(a[1..], b);
    } else {
      assert a + b == b;
    }
  }

  /** Upserting a key that is absent appends exactly one row at the end. */
  lemma {:induction false} UpsertAbsentAppends<K(!new), V>(t: seq<Row<K, V>>, k: K, v: V)
    requires k !in Keys(t)
    ensures Upsert(t, k, v) == t + [Row(k, v)]
  {
    if |t| > 0 {
      UpsertAbsentAppends(t[1..], k, v);
      assert t == [t[0]] + t[1..];
    }
  }

  /** Storing the same row twice leaves exactly what storing it once leaves. */
  lemma {:induction false} UpsertIdempotent<K(!new), V>(t: seq<Row<K, V>>, k: K, v: V)
    ensures Upsert(Upsert(t, k, v), k, v) == Upsert(t, k, v)
  {
    if |t| > 0 && t[0].key != k {
      UpsertIdempotent(t[1..], k, v);
      assert Upsert(t, k, v)[1..] == Upsert(t[1..], k, v);
    }
  }

  /** Upsert keeps keys unique: storing a record never duplicates its key. */
  lemma {:induction false} UpsertKeepsKeysUnique<K(!new), V>(t: seq<Row<K, V>>, k: K, v: V)
    requires UniqueKeys(t)
    ensures UniqueKeys(Upsert(t, k, v))
  {
    if |t| > 0 && t[0].key != k {
      var rest := Upsert(t[1..], k, v);
      UpsertKeepsKeysUnique(t[1..], k, v);
      KeysMembership(t[1..], t[0].key);
      KeysMembership(rest, t[0].key);
      assert t[0].key !in Keys(rest);
      var r := [t[0]] + rest;
      forall i, j | 0 <= i < j < |r| ensures r[i].key != r[j].key {
        if i == 0 {
          assert r[j] == rest[j - 1];
        } else {
          assert r[i] == rest[i - 1] && r[j] == rest[j - 1];
        }
      }
    } else if |t| > 0 {
      var r := [Row(k, v)] + t[1..];
      forall i, j | 0 <= i < j < |r| ensures r[i].key != r[j].key {
        assert r[j] == t[j];
        if i > 0 { assert r[i] == t[i]; } else { assert t[0].key == k; }
      }
    }
  }

  /** The first row of a table with unique keys is the only one with its key. */
  lemma UniqueKeysTail<K, V>(rows: seq<Row<K, V>>)
    requires |rows| > 0 && UniqueKeys(rows)
    ensures rows[0].key !in Keys(rows[1..])
    ensures UniqueKeys(rows[1..])
  {
    var rest := rows[1..];
    forall i | 0 <= i < |rest| ensures rest[i].key != rows[0].key {
      assert rest[i] == rows[i + 1];
    }
    KeysMembership(rest, rows[0].key);
    forall i, j | 0 <= i < j < |rest| ensures rest[i].key != rest[j].key {
      assert rest[i] == rows[i + 1] && rest[j] == rows[j + 1];
    }
  }

  /**
   * Storing a batch whose keys are distinct from each other and from the
   * table's appends the batch verbatim: listing the table then yields the
   * batch in its order.
   */
  lemma {:induction false} UpsertAllFreshAppends<K(!new), V>(t: seq<Row<K, V>>, rows: seq<Row<K, V>>)
    requires UniqueKeys(t + rows)
    ensures UpsertAll(t, rows) == t + rows
    decreases |rows|
  {
    if |rows| > 0 {
      var t', rest := t + [rows[0]], rows[1..];
      assert t' + rest == t + rows;
      assert rows[0].key !in Keys(t) by {
        forall i | 0 <= i < |t| ensures t[i].key != rows[0].key {
          assert (t + rows)[i] == t[i] && (t + rows)[|t|] == rows[0];
        }
        KeysMembership(t, rows[0].key);
      }
      UpsertAbsentAppends(t, rows[0].key, rows[0].value);
      UpsertAllFreshAppends(t', rest);
    }
  }

  /** In a table with unique keys, each row is what its key looks up. */
  lemma {:induction false} LookupUnique<K, V>(t: seq<Row<K, V>>, i: nat)
    requires UniqueKeys(t) && i < |t|
    ensures Lookup(t, t[i].key) == Some(t[i].value)
  {
    if i > 0 {
      assert t[0].key != t[i].key;
      UniqueKeysTail(t);
      LookupUnique(t[1..], i - 1);
    }
  }

  /** Re-storing the value a key already looks up changes nothing. */
  lemma {:induction false} UpsertSame<K(!new), V>(t: seq<Row<K, V>>, k: K, v: V)
    requires Lookup(t, k) == Some(v)
    ensures Upsert(t, k, v) == t
  {
    if |t| > 0 && t[0].key != k {
      UpsertSame(t[1..], k, v);
      assert t == [t[0]] + t[1..];
    } else if |t| > 0 {
      assert t == [t[0]] + t[1..];
    }
  }

  /** Re-storing a batch that every key already looks up changes nothing. */
  lemma {:induction false} UpsertAllPresent<K(!new), V>(t: seq<Row<K, V>>, rows: seq<Row<K, V>>)
    requires forall i :: 0 <= i < |rows| ==> Lookup(t, rows[i].key) == Some(rows[i].value)
    ensures UpsertAll(t, rows) == t
    decreases |rows|
  {
    if |rows| > 0 {
      UpsertSame(t, rows[0].key, rows[0].value);
      forall i | 0 <= i < |rows[1..]| ensures Lookup(t, rows[1..][i].key) == Some(rows[1..][i].value) {
        assert rows[1..][i] == rows[i + 1];
      }
      UpsertAllPresent(t, rows[1..]);
    }
  }

  /**
   * After a batch store, every key looks up either what it looked up before
   * or a value that some row of the batch carried under that key.
   */
  lemma {:induction false} UpsertAllProvenance<K(!new), V>(t: seq<Row<K, V>>, rows: seq<Row<K, V>>, k: K)
    ensures var r := Lookup(UpsertAll(t, rows), k);
            r == Lookup(t, k) || (r.Some? && Row(k, r.value) in rows)
    decreases |rows|
  {
    if |rows| > 0 {
      var t' := Upsert(t, rows[0].key, rows[0].value);
      UpsertAllProvenance(t', rows[1..], k);
      var r := Lookup(UpsertAll(t, rows), k);
      if r != Lookup(t', k) {
        assert Row(k, r.value) in rows[1..];
        assert Row(k, r.value) in rows;
      } else if k == rows[0].key {
        assert Row(k, r.value) == rows[0];
      }
    }
  }
}

=== FILE: text.dfy ===
/** The string building the source does with template literals and `join`. */
module Text {

  /** True iff `c` is one of the ten decimal digit characters. */
  predicate IsDigit(c: char) {
    '0' <= c <= '9'
  }

  /** The decimal digit character for `d`. */
  function DigitChar(d: nat): (c: char)
    requires d < 10
    ensures IsDigit(c)
  {
    ['0', '1', '2', '3', '4', '5', '6', '7', '8', '9'][d]
  }

  /** Decimal rendering of a natural number, as a template literal prints it. */
  function NatToString(n: nat): (r: string)
    ensures |r| > 0
    ensures forall i :: 0 <= i < |r| ==> IsDigit(r[i])
    decreases n
  {
    if n < 10 then [DigitChar(n)] else NatToString(n / 10) + [DigitChar(n % 10)]
  }

  /** `xs.join(sep)`: the elements separated by `sep`. */
  function Join(xs: seq<string>, sep: string): (r: string)
    ensures |xs| == 0 ==> r == ""
    ensures |xs| == 1 ==> r == xs[0]
  {
    if |xs| == 0 then ""
    else if |xs| == 1 then xs[0]
    else xs[0] + sep + Join(xs[1..], sep)
  }

  /** True iff `p` is a prefix of `s`. */
  predicate IsPrefix(p: string, s: string) {
    |p| <= |s| && s[..|p|] == p
  }
}

=== FILE: touch_components.dfy ===
/**
 * The stateful logic of the touch components: the secure PIN pad (key
 * presses, delete, key set and keyboard layout), the swipeable account
 * card's index, and the clamped number stepper.
 */
module TouchComponents {
  import opened Base

  // ------------------------------------------------------------- PIN pad

  /** The ten digit keys in their ordered arrangement. */
  const Digits: seq<char> := ['1', '2', '3', '4', '5', '6', '7', '8', '9', '0']

  /** The PIN after a key event, and the PIN handed to `onComplete`, if it fires. */
  datatype PinStep = PinStep(pin: string, completed: Option<string>)

  /**
   * `handleKeyPress(key)`: appends the digit only while the PIN is shorter
   * than `pinLength`; `onComplete` fires with the whole PIN exactly when this
   * press makes it reach `pinLength`.
   */
  function PressKey(pin: string, pinLength: nat, key: char): (r: PinStep)
    ensures |pin| < pinLength ==> r.pin == pin + [key]
    ensures |pin| >= pinLength ==> r.pin == pin
    ensures r.completed.Some? <==> |pin| < pinLength && |r.pin| == pinLength
    ensures r.completed.Some? ==> r.completed.value == r.pin
    ensures |pin| <= pinLength ==> |r.pin| <= pinLength
  {
    if |pin| < pinLength then
      var next := pin + [key];
      PinStep(next, if |next| == pinLength then Some(next) else None)
    else PinStep(pin, None)
  }

  /** `handleDelete()`: drops the last digit; nothing happens on an empty PIN. */
  function DeleteKey(pin: string): (r: string)
    ensures |pin| > 0 ==> |r| == |pin| - 1 && r == pin[..|pin| - 1]
    ensures |pin| == 0 ==> r == pin
  {
    if |pin| > 0 then pin[..|pin| - 1] else pin
  }

  /** Delete undoes an accepted key press. */
  lemma DeleteUndoesPress(pin: string, pinLength: nat, key: char)
    requires |pin| < pinLength
    ensures DeleteKey(PressKey(pin, pinLength, key).pin) == pin
  {
    assert (pin + [key])[..|pin|] == pin;
  }

  /** A touch on the PIN pad. */
  datatype PinEvent = Digit(key: char) | Backspace

  /** The PIN after a run of touches, with every PIN passed to `onComplete`, in order. */
  datatype PinRun = PinRun(pin: string, completions: seq<string>)

  /** Applies a run of touches to a PIN pad. */
  function RunPinPad(pin: string, pinLength: nat, events: seq<PinEvent>): PinRun
    decreases |events|
  {
    if |events| == 0 then PinRun(pin, [])
    else
      match events[0]
      case Digit(k) =>
        var step := PressKey(pin, pinLength, k);
        var rest := RunPinPad(step.pin, pinLength, events[1..]);
        PinRun(rest.pin, (if step.completed.Some? then [step.completed.value] else []) + rest.completions)
      case Backspace => RunPinPad(DeleteKey(pin), pinLength, events[1..])
  }

  /**
   * From an empty or partial PIN, no run of touches makes the PIN longer
   * than `pinLength`, and every PIN handed to `onComplete` has exactly
   * `pinLength` digits.
   */
  lemma {:induction false} PinRunBounded(pin: string, pinLength: nat, events: seq<PinEvent>)
    requires |pin| <= pinLength
    ensures |RunPinPad(pin, pinLength, events).pin| <= pinLength
    ensures forall i :: 0 <= i < |RunPinPad(pin, pinLength, events).completions| ==>
              |RunPinPad(pin, pinLength, events).completions[i]| == pinLength
    decreases |events|
  {
    if |events| > 0 {
      match events[0]
      case Digit(k) =>
        var step := PressKey(pin, pinLength, k);
        PinRunBounded(step.pin, pinLength, events[1..]);
      case Backspace =>
        PinRunBounded(DeleteKey(pin), pinLength, events[1..]);
    }
  }

  /** Exchanges the entries at two positions (taken modulo the length). */
  function Swap(xs: seq<char>, i: nat, j: nat): (r: seq<char>)
    requires |xs| > 0
    ensures |r| == |xs| && multiset(r) == multiset(xs)
  {
    var a, b := i % |xs|, j % |xs|;
    xs[a := xs[b]][b := xs[a]]
  }

  /** A sequence of exchanges applied in order. */
  function ApplySwaps(xs: seq<char>, swaps: seq<(nat, nat)>): (r: seq<char>)
    requires |xs| > 0
    ensures |r| == |xs| && multiset(r) == multiset(xs)
    decreases |swaps|
  {
    if |swaps| == 0 then xs else ApplySwaps(Swap(xs, swaps[0].0, swaps[0].1), swaps[1..])
  }

  /**
   * The key set of the pad. Ordered, it is the ten digits as listed;
   * shuffled, it is the same ten digits rearranged. The random comparator
   * is modelled as an arbitrary sequence of exchanges.
   */
  function Keys(shuffleKeys: bool, swaps: seq<(nat, nat)>): (keys: seq<char>)
    ensures |keys| == 10 && multiset(keys) == multiset(Digits)
    ensures !shuffleKeys ==> keys == Digits
  {
    if shuffleKeys then ApplySwaps(Digits, swaps) else Digits
  }

  /** One cell of the 3-by-4 keyboard. `MissingKey` is a cell whose key is undefined. */
  datatype Cell = DigitCell(key: char) | EmptyCell | MissingKey | DeleteCell

  /**
   * `keyboardLayout`: the first nine keys, an empty cell, the tenth key,
   * and the delete key.
   */
  function Layout(keys: seq<char>): (cells: seq<Cell>)
    ensures |keys| >= 9 ==> |cells| == 12
    ensures |keys| >= 9 ==> forall p :: 0 <= p < 9 ==> cells[p] == DigitCell(keys[p])
    ensures |keys| >= 9 ==> cells[9] == EmptyCell && cells[11] == DeleteCell
    ensures |keys| >= 10 ==> cells[10] == DigitCell(keys[9])
  {
    var n := if |keys| < 9 then |keys| else 9;
    seq(n, p requires 0 <= p < n => DigitCell(keys[p])) +
    [EmptyCell, if |keys| > 9 then DigitCell(keys[9]) else MissingKey, DeleteCell]
  }

  /** The keys of the digit cells, in cell order. */
  function CellKeys(cells: seq<Cell>): seq<char> {
    if |cells| == 0 then []
    else (if cells[0].DigitCell? then [cells[0].key] else []) + CellKeys(cells[1..])
  }

  /** `CellKeys` distributes over concatenation. */
  lemma {:induction false} CellKeysAppend(a: seq<Cell>, b: seq<Cell>)
    ensures CellKeys(a + b) == CellKeys(a) + CellKeys(b)
  {
    if |a| > 0 {
      assert (a + b)[1..] == a[1..] + b;
      CellKeysAppend(a[1..], b);
    } else {
      assert a + b == b;
    }
  }

  /** The digit cells of a run of digit cells carry those keys. */
  lemma {:induction false} CellKeysOfDigits(keys: seq<char>)
    ensures CellKeys(seq(|keys|, p requires 0 <= p < |keys| => DigitCell(keys[p]))) == keys
    decreases |keys|
  {
    var cells := seq(|keys|, p requires 0 <= p < |keys| => DigitCell(keys[p]));
    if |keys| > 0 {
      assert cells[1..] == seq(|keys[1..]|, p requires 0 <= p < |keys[1..]| => DigitCell(keys[1..][p]));
      CellKeysOfDigits(keys[1..]);
      assert keys == [keys[0]] + keys[1..];
    }
  }

  /** The three fixed cells of the bottom row carry only the tenth key. */
  lemma CellKeysOfBottomRow(k: char)
    ensures CellKeys([EmptyCell, DigitCell(k), DeleteCell]) == [k]
  {
    var row: seq<Cell> := [EmptyCell, DigitCell(k), DeleteCell];
    var last: seq<Cell> := [DeleteCell];
    assert last[1..] == [];
    assert CellKeys(last) == [];
    assert row[1..][1..] == last;
    assert CellKeys(row[1..]) == [k];
  }

  /** A ten-key layout reads back the keys in order. */
  lemma LayoutReadsKeys(keys: seq<char>)
    requires |keys| == 10
    ensures CellKeys(Layout(keys)) == keys
  {
    var first := seq(9, p requires 0 <= p < 9 => DigitCell(keys[p]));
    var bottom: seq<Cell> := [EmptyCell, DigitCell(keys[9]), DeleteCell];
    assert Layout(keys) == first + bottom;
    CellKeysAppend(first, bottom);
    assert first == seq(|keys[..9]|, p requires 0 <= p < |keys[..9]| => DigitCell(keys[..9][p]));
    CellKeysOfDigits(keys[..9]);
    CellKeysOfBottomRow(keys[9]);
    assert keys[..9] + [keys[9]] == keys;
  }

  /**
   * For any key set the pad generates, the keyboard's digit cells read the
   * keys in order, so each of the ten digits appears on exactly one cell.
   */
  lemma LayoutShowsEveryDigitOnce(shuffleKeys: bool, swaps: seq<(nat, nat)>)
    ensures var keys := Keys(shuffleKeys, swaps);
            CellKeys(Layout(keys)) == keys && multiset(CellKeys(Layout(keys))) == multiset(Digits)
  {
    LayoutReadsKeys(Keys(shuffleKeys, swaps));
  }

  // ----------------------------------------------------- swipeable card

  datatype Direction = Left | Right

  /** The card index after a swipe, and the account id passed to `onAccountChange`, if any. */
  datatype SwipeStep = SwipeStep(index: nat, notified: Option<string>)

  /**
   * `handleSwipe(direction)`: a left swipe moves to the next account while
   * one remains; a right swipe moves back while not at the first; otherwise
   * nothing changes and nobody is notified.
   */
  function HandleSwipe(ids: seq<string>, index: nat, d: Direction): (r: SwipeStep)
    ensures d == Left && index + 1 < |ids| ==> r.index == index + 1
    ensures d == Right && index > 0 ==> r.index == index - 1
    ensures !(d == Left && index + 1 < |ids|) && !(d == Right && index > 0) ==> r == SwipeStep(index, None)
    ensures r.notified.Some? ==> r.index != index && r.index < |ids| && r.notified.value == ids[r.index]
    ensures index < |ids| && r.index != index ==> r.notified == Some(ids[r.index])
    ensures index < |ids| ==> r.index < |ids|
  {
    if d == Left && index + 1 < |ids| then SwipeStep(index + 1, Some(ids[index + 1]))
    else if d == Right && index > 0 then
      SwipeStep(index - 1, if index - 1 < |ids| then Some(ids[index - 1]) else None)
    else SwipeStep(index, None)
  }

  /** Swiping left then right returns to the card it started from. */
  lemma SwipeLeftThenRight(ids: seq<string>, index: nat)
    requires index + 1 < |ids|
    ensures HandleSwipe(ids, HandleSwipe(ids, index, Left).index, Right).index == index
  {
  }

  /** Applies a run of swipes from a given card. */
  function RunSwipes(ids: seq<string>, index: nat, swipes: seq<Direction>): nat
    decreases |swipes|
  {
    if |swipes| == 0 then index else RunSwipes(ids, HandleSwipe(ids, index, swipes[0]).index, swipes[1..])
  }

  /**
   * Starting from the first card of a non-empty list, any run of swipes
   * keeps the index within the list.
   */
  lemma {:induction false} SwipesStayInRange(ids: seq<string>, index: nat, swipes: seq<Direction>)
    requires index < |ids|
    ensures RunSwipes(ids, index, swipes) < |ids|
    decreases |swipes|
  {
    if |swipes| > 0 {
      SwipesStayInRange(ids, HandleSwipe(ids, index, swipes[0]).index, swipes[1..]);
    }
  }

  // ---------------------------------------------------- number stepper

  /** An upper bound that may be infinite (`max` defaults to `Infinity`). */
  datatype Bound = Finite(limit: int) | Infinite

  /** True iff `v` does not exceed the bound. */
  predicate AtMost(v: int, max: Bound) {
    max.Infinite? || v <= max.limit
  }

  /** The value proposed by a step, and whether `onChange` fires with it. */
  datatype StepChange = StepChange(value: int, fired: bool)

  /**
   * `handleIncrement()`: `min(value + step, max)`, reported to `onChange`
   * only when it differs from the current value.
   */
  function Increment(value: int, step: int, max: Bound): (r: StepChange)
    ensures AtMost(r.value, max) && r.value <= value + step
    ensures r.value == value + step || (max.Finite? && r.value == max.limit)
    ensures r.fired <==> r.value != value
  {
    var next := if max.Finite? && max.limit < value + step then max.limit else value + step;
    StepChange(next, next != value)
  }

  /**
   * `handleDecrement()`: `max(value - step, min)`, reported to `onChange`
   * only when it differs from the current value.
   */
  function Decrement(value: int, step: int, min: int): (r: StepChange)
    ensures r.value >= min && r.value >= value - step
    ensures r.value == value - step || r.value == min
    ensures r.fired <==> r.value != value
  {
    var next := if value - step < min then min else value - step;
    StepChange(next, next != value)
  }

  /**
   * A press on the + button. The button is disabled while `value >= max`,
   * so such a press does nothing; otherwise it runs `handleIncrement()`.
   */
  function PressPlus(value: int, step: int, max: Bound): (r: StepChange)
    ensures !max.Infinite? && value >= max.limit ==> r == StepChange(value, false)
    ensures r.fired <==> (max.Infinite? || value < max.limit) && Increment(value, step, max).fired
    ensures r.fired ==> r.value == Increment(value, step, max).value && AtMost(r.value, max)
  {
    if max.Finite? && value >= max.limit then StepChange(value, false)
    else Increment(value, step, max)
  }

  /**
   * A press on the − button. The button is disabled while `value <= min`,
   * so such a press does nothing; otherwise it runs `handleDecrement()`.
   */
  function PressMinus(value: int, step: int, min: int): (r: StepChange)
    ensures value <= min ==> r == StepChange(value, false)
    ensures r.fired <==> value > min && Decrement(value, step, min).fired
    ensures r.fired ==> r.value == Decrement(value, step, min).value && r.value >= min
  {
    if value <= min then StepChange(value, false)
    else Decrement(value, step, min)
  }

  /**
   * With a non-negative step, a press that fires always moves the value in
   * its button's direction. The handlers alone do not promise this: outside
   * `[min, max]` a clamp can move the value the other way, and the disabled
   * gate is what prevents it.
   */
  lemma PressesMoveTheirWay(value: int, step: int, min: int, max: Bound)
    requires step >= 0
    ensures PressPlus(value, step, max).fired ==> PressPlus(value, step, max).value > value
    ensures PressMinus(value, step, min).fired ==> PressMinus(value, step, min).value < value
  {
  }

  /** Without the gate, + above `max` and − below `min` would move the value backwards. */
  lemma UngatedHandlersCanReverse()
    ensures Increment(10, 1, Finite(5)) == StepChange(5, true)
    ensures Decrement(-1, 1, 0) == StepChange(0, true)
    ensures !PressPlus(10, 1, Finite(5)).fired && !PressMinus(-1, 1, 0).fired
  {
  }

  /** A stepper value after a step: the proposed value if `onChange` fired. */
  function Settle(value: int, c: StepChange): int {
    if c.fired then c.value else value
  }

  /** With a non-negative step, both buttons keep a value inside `[min, max]`. */
  lemma StepsStayInRange(value: int, step: int, min: int, max: Bound)
    requires step >= 0 && min <= value && AtMost(value, max)
    ensures min <= Settle(value, Increment(value, step, max)) && AtMost(Settle(value, Increment(value, step, max)), max)
    ensures min <= Settle(value, Decrement(value, step, min)) && AtMost(Settle(value, Decrement(value, step, min)), max)
  {
  }

  /** Away from the bounds, a decrement undoes an increment. */
  lemma DecrementUndoesIncrement(value: int, step: int, min: int, max: Bound)
    requires min <= value && AtMost(value + step, max)
    ensures Decrement(Increment(value, step, max).value, step, min).value == value
  {
  }

  /** At `max` the increment proposes no change; at `min` the decrement proposes none. */
  lemma StepsAtBoundsDoNotFire(value: int, step: int, min: int, max: Bound)
    requires step >= 0
    ensures max == Finite(value) ==> !Increment(value, step, max).fired
    ensures value == min ==> !Decrement(value, step, min).fired
  {
  }
}

=== FILE: transaction_item.dfy ===
/** One row of the transaction list: the sign colour, type label, amount and balance. */
module TransactionItem {
  import opened Base
  import Storage

  const Deposit := "입금"
  const Withdrawal := "출금"
  const TransferType := "이체"

  /** Blue for money in, red for money out. */
  const PositiveColor := "#4285F4"
  const NegativeColor := "#E74C3C"

  /** The colour rule: a deposit by type, or any positive amount. */
  predicate IsPositive(tx: Storage.Transaction) {
    tx.transactionType == Deposit || tx.amount > 0
  }

  /**
   * The label shown before the amount. The type decides first (a transfer is
   * shown as a withdrawal, a deposit as a deposit); otherwise the sign does.
   */
  function TypeText(tx: Storage.Transaction): (r: string)
    ensures r == Deposit || r == Withdrawal
    ensures tx.transactionType == TransferType ==> r == Withdrawal
    ensures tx.transactionType != TransferType ==> (r == Deposit <==> IsPositive(tx))
  {
    if tx.transactionType == TransferType then Withdrawal
    else if tx.transactionType == Deposit then Deposit
    else if tx.amount > 0 then Deposit
    else Withdrawal
  }

  /** `Math.abs` on the integral amount. */
  function Magnitude(x: int): (r: nat)
    ensures r == x || r == -x
  {
    if x < 0 then -x else x
  }

  /** What the row shows; `formatCurrency` is left to the caller. */
  datatype Row = Row(color: string, caption: string, magnitude: nat, balance: Option<int>)

  /** The rendered row; `showBalance` defaults to true in the component. */
  function Render(tx: Storage.Transaction, showBalance: bool): (r: Row)
    ensures r.color == PositiveColor <==> IsPositive(tx)
    ensures r.color == NegativeColor <==> !IsPositive(tx)
    ensures r.caption == TypeText(tx)
    ensures r.magnitude == Magnitude(tx.amount)
    ensures r.balance.Some? <==> showBalance
    ensures r.balance.Some? ==> r.balance.value == tx.balanceAfter
  {
    Row(if IsPositive(tx) then PositiveColor else NegativeColor,
        TypeText(tx),
        Magnitude(tx.amount),
        if showBalance then Some(tx.balanceAfter) else None)
  }

  /** Apart from transfers, the label and the colour always agree. */
  lemma LabelAgreesWithColor(tx: Storage.Transaction, showBalance: bool)
    requires tx.transactionType != TransferType
    ensures Render(tx, showBalance).caption == Deposit <==> Render(tx, showBalance).color == PositiveColor
  {
  }

  /** Negating the amount keeps the magnitude: sign is carried by label and colour only. */
  lemma MagnitudeIgnoresSign(tx: Storage.Transaction, showBalance: bool)
    ensures Render(tx, showBalance).magnitude == Render(tx.(amount := -tx.amount), showBalance).magnitude
  {
  }

  /**
   * A transfer with a positive amount (money received by transfer) is drawn
   * in the deposit colour but labelled as a withdrawal.
   */
  lemma IncomingTransferMixesSignals(tx: Storage.Transaction)
    requires tx.transactionType == TransferType && tx.amount > 0
    ensures Render(tx, true).color == PositiveColor
    ensures Render(tx, true).caption == Withdrawal
  {
  }
}
